=== FILE: README.md ===
# unlock-recurring-mev: the renewal-opportunity pipeline, modelled in Dafny

The repository finds expired Unlock Protocol memberships (keys of version-10+
PublicLock contracts) that can be renewed at a profit. Three scripts each write
a JSON file that the next one reads:

1. **Find locks** (`scripts/01-find-locks.js`). It reads the `NewLock` and
   `LockUpgraded` events of the Unlock contract. For each named lock,
   `getLockState` applies its guards in order:
   - version at least 10;
   - a positive gas refund;
   - an ERC-20 key token;
   - at least one owner;
   - a finite, positive expiration duration;
   - the lock is old enough for a key to have expired.

   It then enumerates keys `1..numberOfOwners` until the first read that throws.
   A lock that fails any guard becomes the sentinel `{lockAddress, version: 0}`,
   which is filtered out. Locks from upgrade events are added after the
   NewLock-derived ones.
2. **Find subscribers** (`scripts/02-find-subscribers.js`). For every expired
   key whose (token, owner) pair has no entry yet, it asks the key token how
   much the owner has approved to the key's lock. It keeps the first non-zero
   answer per (token, owner). It creates an empty map
   for every token of a lock that has keys.
3. **Find profitable** (`scripts/03-find-profitable.js`). It prices each lock's
   gas refund in ETH and means to order the locks by refund, highest first.
   As written, the comparator orders nothing, so the locks keep the order
   stage 1 found them in (see "## Findings"). The model has both stages:
   `FindProfitableAsWritten` and the corrected `FindProfitable`. It drops
   locks whose refund is at most 0.02 ETH. Then it walks the keys of the rest
   and selects a renewal when the owner's remaining allowance and token balance
   both cover the key price. The owner's allowance is drawn down by each
   selected renewal.

Each script is one Dafny module:

- `FindLocks`, in `find_locks.dfy`;
- `FindSubscribers`, in `find_subscribers.dfy`;
- `FindProfitable`, in `find_profitable.dfy`.

The shared records live in `Common` (`common.dfy`). Every chain read is an
input to the model:
- a `LockProbe` per lock address: each contract call is an `Option`, where `None` is a call that throws;
- an `Approvals` oracle for `allowance`;
- the price response as a map from token to wei per whole token;
- `decimalsOf` and `balanceOf` for the token contracts;
- the current time `now`.

The step-by-step parts of the source are methods proved equal to a
specification function:
- the key enumeration loop, `CollectKeys`, and the guard sequence around it, `GetLockState`;
- the allowance loops, `VisitKey` and `FindSubscribers`;
- the renewal walk, `ConsiderKey`, `SelectLockKeys`, `SelectOpportunities` and `Run`
  (`Run` is the corrected stage).

The refund loop of stage 3 (scripts/03-find-profitable.js:42-62) only maps
each lock to a value. It is modelled by the function `RefundEntries` alone.
The properties are lemmas about these functions.

Refund values are kept as exact rationals `amount / 10^exponent`, where
`amount = gasRefundValue * priceWei` and `exponent = decimals + 18`. The
comparisons of the ordering and the 0.02 ETH threshold are cross-multiplied
(`AtMost`, `Profitable`).

Two behaviours of the code are worth knowing:
- When key enumeration stops on a failing read, the code keeps the keys read
  so far (`EnumerateKeys`, `PartialEnumeration`).
- The token balance is checked against the key price for each renewal, but it
  is never drawn down. An owner whose balance covers one price can therefore be
  selected for several renewals, as long as their allowance lasts
  (`BalanceNotDrawnDown`).

## Model

| member | source | states |
|---|---|---|
| `FindLocks.KeysFrom` | scripts/01-find-locks.js:94-103 | keys from `tokenId` on carry consecutive ids, each with the recorded owner and `isExpired` iff expiry <= now; stops at the first id whose reads throw, never past `numberOfOwners` |
| `FindLocks.EnumerateKeys` | scripts/01-find-locks.js:91-106 | at most `numberOfOwners` keys, ids 1.., owner and expiry flag from the lock's answers; a short list means the next id's read threw |
| `FindLocks.CollectKeys` | scripts/01-find-locks.js:91-106 | the enumeration loop returns exactly `EnumerateKeys` |
| `FindLocks.LockStateOf` | scripts/01-find-locks.js:59-126 | the lock is found iff it is eligible (every read answers and passes its guard, and creation + duration <= now); a found record carries the address and the probe's own version, refund, token, owner count, duration and key price, and the enumerated keys, and so meets every guard (version >= 10, refund > 0, non-zero token, owners > 0, 0 < duration < 2^256-1) |
| `FindLocks.GetLockState` | scripts/01-find-locks.js:59-126 | the guard sequence returns exactly `LockStateOf` |
| `FindLocks.FailedGuardYieldsSentinel` | scripts/01-find-locks.js:61-124 | any read that throws, any failed guard (including a duration of 2^256-1 or more) or a lock that is too fresh gives the sentinel with version 0 |
| `FindLocks.TooFreshBoundary` | scripts/01-find-locks.js:82-87 | with every other guard passed (so 0 < duration < 2^256-1), the lock is skipped iff now < creation + duration; equality is not too fresh |
| `FindLocks.EligibleLater` | scripts/01-find-locks.js:63-89 | a lock eligible at some time stays eligible at any later time, with the same answers |
| `FindLocks.PartialEnumeration` | scripts/01-find-locks.js:92-106 | if ids 1..k answer and k+1 throws, exactly k keys are kept |
| `FindLocks.Relevant` | scripts/01-find-locks.js:34 | a record is kept iff it is a found lock state with non-zero version; never longer than its input |
| `FindLocks.RelevantAppend` | scripts/01-find-locks.js:34 | the filter keeps relative order (distributes over concatenation) |
| `FindLocks.IndexOf` | scripts/01-find-locks.js:43 | `indexOf` is -1 iff no record is strictly equal to the address |
| `FindLocks.IndexOfNeverMatches` | scripts/01-find-locks.js:43 | `indexOf` of an address among lock records is always -1 |
| `FindLocks.UpgradeCandidatesAsWritten` | scripts/01-find-locks.js:41-43 | as written, an upgrade event is kept iff its version is 10 |
| `FindLocks.UpgradeCandidates` | scripts/01-find-locks.js:41-43 | intended: an upgrade event is kept iff its version is 10 and no NewLock-derived record has its address |
| `FindLocks.CandidatesAppend` | scripts/01-find-locks.js:41-43 | both upgrade filters keep the events in their relative order |
| `FindLocks.FindLocksAsWritten` | scripts/01-find-locks.js:28-51 | main as written: never more locks than events, and every kept lock meets every guard of getLockState |
| `FindLocks.FindLocks` | scripts/01-find-locks.js:28-51 | the intended merge: never more locks than events, and every kept lock meets every guard of getLockState |
| `FindLocks.FoundIsRelevant` | scripts/01-find-locks.js:34 | a found lock is never filtered out |
| `FindLocks.FindLocksSound` | scripts/01-find-locks.js:28-51 | for both the merge as written and the intended one, every output lock is the record getLockState returned for an eligible lock named by a NewLock event or by a version-10 upgrade event |
| `FindLocks.NewLockEligibleIsFound` | scripts/01-find-locks.js:28-34 | the record of every eligible lock named by a NewLock event is in the output of both merges |
| `FindLocks.FoundRecordIgnoresTimestamp` | scripts/01-find-locks.js:82-117 | the record of an eligible lock does not depend on the creation or upgrade time it was probed with |
| `FindLocks.UpgradeEligibleIsFound` | scripts/01-find-locks.js:41-51 | the record of every eligible lock named by a version-10 upgrade event is in the output of both merges |
| `FindLocks.FindLocksOrder` | scripts/01-find-locks.js:28-51 | both merges list the NewLock-derived locks first, then the upgrade-derived ones, each part in event order: splitting either event list splits that part of the output at the same point |
| `FindLocks.NoDuplicateAcrossSources` | scripts/01-find-locks.js:41-51 | no upgrade-derived lock repeats the address of a NewLock-derived one |
| `FindLocks.AsWrittenDuplicatesLock` | scripts/01-find-locks.js:41-51 | as written, a lock with both events appears twice; the intended merge lists it once |
| `FindSubscribers.LockVisits` | scripts/02-find-subscribers.js:23 | one visit per key of the lock |
| `FindSubscribers.Step` | scripts/02-find-subscribers.js:24-43 | one key: the token's map exists afterwards; existing entries are unchanged; other tokens' maps are unchanged; the only owner that can be added is the key's own; an unexpired key makes no call and leaves its token's map as it was |
| `FindSubscribers.ScanVisits` | scripts/02-find-subscribers.js:15-45 | every stored allowance is non-zero |
| `FindSubscribers.VisitKey` | scripts/02-find-subscribers.js:24-43 | the key-loop body returns exactly `Step` |
| `FindSubscribers.FindSubscribers` | scripts/02-find-subscribers.js:15-45 | the nested loops return exactly the scan of all keys of all locks in order |
| `FindSubscribers.FirstApprovalWins` | scripts/02-find-subscribers.js:31-43 | an entry exists iff some expired key of that owner and token has a non-zero allowance; its value is the first such answer |
| `FindSubscribers.QueriesFromExpiredKeys` | scripts/02-find-subscribers.js:26-36 | a call is made iff a visited key is expired and its (token, owner) has no entry yet, and it asks for the owner's allowance to that key's lock |
| `FindSubscribers.TokenMapCreated` | scripts/02-find-subscribers.js:23-24 | a token has a map iff some lock of that token has a key |
| `FindSubscribers.VisitsOfLocks` | scripts/02-find-subscribers.js:15-23 | the visits are exactly the (lock, key) pairs |
| `FindSubscribers.FindSubscribersCoversTokens` | scripts/02-find-subscribers.js:24 | every lock with keys has its token's map, which stage 3 needs |
| `FindSubscribers.EntryFromExpiredKey` | scripts/02-find-subscribers.js:26-43 | every entry names an expired key of a lock of that token whose allowance answer is that non-zero value |
| `FindSubscribers.UnexpiredKeysOnly` | scripts/02-find-subscribers.js:24-29 | for any locks whose keys are all unexpired and any token answers, no allowance call is made and every token map stays empty |
| `FindProfitable.RefundEntries` | scripts/03-find-profitable.js:42-62 | succeeds iff every lock's token is priced; one entry per lock with amount refund * price and exponent decimals + 18; otherwise fails naming an unpriced token |
| `FindProfitable.AtMostTransitive` | scripts/03-find-profitable.js:63 | the refund comparison is transitive |
| `FindProfitable.AtMostTotal` | scripts/03-find-profitable.js:63 | any two refunds are comparable, so the order is total |
| `FindProfitable.RefundOrderSameToken` | scripts/03-find-profitable.js:43-55 | among locks priced in the same token, a higher gas refund never ranks lower, and with a non-zero price the ranking is exactly by gas refund |
| `FindProfitable.InsertDesc` | scripts/03-find-profitable.js:63 | insertion keeps the order descending and adds exactly the entry |
| `FindProfitable.SortByRefund` | scripts/03-find-profitable.js:63 | intended sort: descending by refund value and a permutation of the input |
| `FindProfitable.AboveThreshold` | scripts/03-find-profitable.js:66-69 | an entry is kept iff its refund exceeds 0.02 ETH; a descending input stays descending |
| `FindProfitable.AboveThresholdCounts` | scripts/03-find-profitable.js:66-69 | each profitable entry is kept exactly as often as it occurs in the input, every other entry not at all |
| `FindProfitable.AboveThresholdAppend` | scripts/03-find-profitable.js:69 | the filter keeps relative order (distributes over concatenation) |
| `FindProfitable.ProfitableUpward` | scripts/03-find-profitable.js:63-69 | a refund at least as high as a profitable one is profitable |
| `FindProfitable.ProfitableFormPrefix` | scripts/03-find-profitable.js:63-69 | in a descending sequence the profitable entries come first |
| `FindProfitable.WalkOrder` | scripts/03-find-profitable.js:63-69 | the walked entries are the profitable ones, each as often as in the input, highest refund first |
| `FindProfitable.EntriesHaveLocks` | scripts/03-find-profitable.js:75 | every walked entry has a lock record, so the lookup never fails |
| `FindProfitable.FindLock` | scripts/03-find-profitable.js:75 | the lookup returns the first lock record with that address |
| `FindProfitable.LockCandidates` | scripts/03-find-profitable.js:77 | one candidate per key |
| `FindProfitable.WalkCandidates` | scripts/03-find-profitable.js:74-77 | every candidate is a key of a lock on the walk, with that lock's token and key price |
| `FindProfitable.Consider` | scripts/03-find-profitable.js:78-105 | one key leaves the set of tokens and owners in the allowance map unchanged |
| `FindProfitable.ConsiderEffect` | scripts/03-find-profitable.js:78-105 | a key is selected iff the owner has an entry, allowance >= price and balance >= price; selecting appends the renewal and lowers that one allowance by the price, and nothing else changes |
| `FindProfitable.ConsiderKey` | scripts/03-find-profitable.js:78-105 | the key-loop body returns exactly `Consider` |
| `FindProfitable.Select` | scripts/03-find-profitable.js:73-106 | the walk never adds or removes tokens or owners in the allowance map |
| `FindProfitable.SelectedPicksChecked` | scripts/03-find-profitable.js:78-102 | every selected renewal has an allowance entry and a covering balance, and comes from a walked key |
| `FindProfitable.SelectKeys` | scripts/03-find-profitable.js:77-106 | walking a lock's keys keeps the tokens of the allowance map |
| `FindProfitable.SelectKeysIsSelect` | scripts/03-find-profitable.js:77-106 | walking one lock's first n keys equals selecting over those candidates |
| `FindProfitable.SelectLockKeys` | scripts/03-find-profitable.js:77-106 | the key loop returns exactly the walk over all of the lock's keys |
| `FindProfitable.SelectOpportunities` | scripts/03-find-profitable.js:73-106 | the walk loop returns exactly `Select` over the walked locks' keys |
| `FindProfitable.AllowanceConservation` | scripts/03-find-profitable.js:105 | remaining allowance plus the prices of the renewals charged to it equals the initial allowance |
| `FindProfitable.NothingSpentWithoutEntry` | scripts/03-find-profitable.js:78-81 | no renewal is charged to an owner without an allowance entry |
| `FindProfitable.SpentWithinAllowance` | scripts/03-find-profitable.js:83-105 | renewals charged to an owner never exceed their approved allowance |
| `FindProfitable.EarlierCandidatesPickedFirst` | scripts/03-find-profitable.js:73-106 | renewals selected over a prefix of the walk are a prefix of the final selection |
| `FindProfitable.FindProfitable` | scripts/03-find-profitable.js:12-106 | intended (comparator at 03:63 corrected): no prices means nothing to do; the run crashes iff some lock's token is unpriced, naming such a token; otherwise renewals are selected |
| `FindProfitable.FindProfitableAsWritten` | scripts/03-find-profitable.js:12-106 | as written: no prices means nothing to do; the run crashes iff some lock's token is unpriced, naming such a token; otherwise renewals are selected over the profitable locks in lock order |
| `FindProfitable.WalkAsWritten` | scripts/03-find-profitable.js:63-69 | as written: the walked entries are exactly the profitable ones |
| `FindProfitable.WalksSameLocks` | scripts/03-find-profitable.js:63-69 | the walk as written and the intended walk hold the same entries, each as often; only their order differs |
| `FindProfitable.PickFromWalk` | scripts/03-find-profitable.js:74-102 | every renewal comes from a lock on the walk |
| `FindProfitable.ProfitableEntryHasLock` | scripts/03-find-profitable.js:42-69 | a profitable entry is the refund of a lock with that address |
| `FindProfitable.Run` | scripts/03-find-profitable.js:12-106 | intended (comparator at 03:63 corrected): the stage's body returns exactly `FindProfitable` |
| `FindProfitable.SelectedAreProfitable` | scripts/03-find-profitable.js:69-102 | intended stage: every renewal is for a lock whose refund exceeds 0.02 ETH, of an owner with an allowance entry and a balance covering the price |
| `FindProfitable.FindProfitableConservesAllowance` | scripts/03-find-profitable.js:83-105 | intended stage: renewals charged to an owner never exceed their approved allowance |
| `FindProfitable.SelectedAreProfitableAsWritten` | scripts/03-find-profitable.js:63-102 | as written: every renewal is for a lock whose refund exceeds 0.02 ETH, of an owner with an allowance entry and a balance covering the price |
| `FindProfitable.FindProfitableAsWrittenConservesAllowance` | scripts/03-find-profitable.js:83-105 | as written: renewals charged to an owner never exceed their approved allowance |
| `FindProfitable.OneLockOneRenewal` | scripts/03-find-profitable.js:73-106 | for any single lock with one key, a refund above 0.02 ETH, and an owner whose allowance entry and balance both cover the key price, both stages renew exactly that key |
| `FindProfitable.UncoveredKeyNotRenewed` | scripts/03-find-profitable.js:78-95 | for any single lock with one key whose owner has no allowance entry, an allowance below the key price or a balance below it, both stages renew nothing |
| `FindProfitable.NoPricesNothingToDo` | scripts/03-find-profitable.js:32-35 | an empty price response ends the stage with nothing to do |
| `FindProfitable.HigherRefundWalkedFirst` | scripts/03-find-profitable.js:63-106 | worked case, intended stage: locks A (refund 10 ETH) and B (refund 2 ETH), key price 5, one owner with allowance 5 and balance 5; in either input order A's key is renewed and B's is not |
| `FindProfitable.AsWrittenLowerRefundFirst` | scripts/03-find-profitable.js:63-106 | worked case: the same locks listed B then A; as written B's key is renewed, the intended stage renews A's |
| `FindProfitable.BalanceNotDrawnDown` | scripts/03-find-profitable.js:91-105 | worked case: locks A and C (C's key not expired), key price 5, allowance 10, balance 5; both keys are renewed, since the balance is checked but never drawn down |

## Left out

- `scripts/04-renew-memberships.js` and the Hardhat configuration are not part of this model.
- I/O is not modelled: event queries, block lookups, contract calls, JSON files, console output and `process.exit`. Their results are inputs, as described above.
- The price request is not modelled: the Coingecko URL, the mock response for one test token, and the "no response" error. The response is the `prices` map, already converted to wei per whole token. `parseEther` of the float price is not modelled.
- `Promise.all` concurrency is not modelled. Results are taken in event order, which is the order `Promise.all` returns.
- The hard-coded NewLock filter, the Unlock contract address and the search start block are not modelled. The events are inputs.
- One `now` is taken per run. The source reads the clock again for each lock.
- `expiryDate` in the key records is not modelled. It is display-only, and no stage reads it.
- The token contract-handle caches of stages 2 and 3 are not modelled. They do not change any result.
- `FindProfitable.RefundEntries`: `formatUnits` yields a decimal string, which is compared with 0.02 as a float. The model compares exact rationals, so rounding at the float boundary is not captured.
- `decimals()` and `balanceOf` are total functions in stage 3. A throwing call there would abort the script.
- Block lookups in stage 1 (scripts/01-find-locks.js:30 and 46) and `allowance` calls in stage 2 (scripts/02-find-subscribers.js:36) are total too: the block timestamp is part of each event, and `Approvals` always answers. In the source, a throwing call there rejects `main`, and the script exits with status 1 without writing its output.
- The too-fresh sum at scripts/01-find-locks.js:83 adds `Number(expirationDuration)`, a float, to the creation time. The model adds exact integers, so rounding for durations above 2^53 is not captured.
- `FindProfitable.SortByRefund` does not model the tie order of the JavaScript sort. Only descending order and permutation are stated.
- `FindProfitable.SortAsWritten` relies on `Array.prototype.sort` being stable, as ECMAScript requires since its 2019 edition; an older, unstable engine could reorder locks that all compare equal.
- `FindProfitable.Consider` needs the token's map to exist. In the source, a missing map would throw. `FindSubscribers.FindSubscribersCoversTokens` proves stage 2 always creates it.
- Stage 3 assumes every lock has a refund entry. A lock whose token is unpriced crashes the run (`MissingPrice`), matching the TypeError the source would throw.

## Findings

| source | as written | input that shows it | evidently intended | confidence | as-written member | corrected member |
|---|---|---|---|---|---|---|
| scripts/01-find-locks.js:43 | `indexOf` looks up an address among lock records, which never matches, so no upgrade event is excluded | an eligible lock with both a NewLock event and a version-10 LockUpgraded event | drop upgrade events for locks already found through NewLock | not executed | `FindLocks.AsWrittenDuplicatesLock` | `FindLocks.NoDuplicateAcrossSources` |
| scripts/03-find-profitable.js:63 | the comparator calls the legacy string method `sub` on the string `formatUnits` returns; it yields `"<sub>…</sub>"`, which the sort reads as NaN and counts as equal, so the locks keep their input order | lock B (refund 2 ETH) listed before lock A (refund 10 ETH), key price 5, one owner with allowance 5 and balance 5: B's key is renewed, not A's | order the locks by refund value, highest first | not executed | `FindProfitable.AsWrittenLowerRefundFirst` | `FindProfitable.SortByRefund` |

=== FILE: common.dfy ===
/**
 * Values shared by the three stages of the renewal-opportunity pipeline:
 * addresses, the lock records stage 1 produces, and the
 * token -> owner -> allowance map stage 2 produces and stage 3 consumes.
 */
module Common {

  datatype Option<T> = None | Some(value: T)

  /** An account or contract address; 0 stands for the zero address. */
  type Address = nat

  const AddressZero: Address := 0

  /** One key (membership) of a lock, as stage 1 records it. */
  datatype Key = Key(tokenId: nat, owner: Address, isExpired: bool)

  /** A lock that passed every eligibility guard, with the keys enumerated for it. */
  datatype Lock = Lock(
    lockAddress: Address,
    version: nat,
    gasRefundValue: nat,
    tokenAddress: Address,
    numberOfOwners: nat,
    expirationDuration: nat,
    keyPrice: nat,
    keys: seq<Key>)

  /** Approved amounts, by token and then by owner. */
  type AllowanceMap = map<Address, map<Address, nat>>

  /** Every lock that has at least one key has an inner map for its token. */
  predicate TokensCovered(locks: seq<Lock>, allowances: AllowanceMap)
  {
    forall l :: l in locks && |l.keys| > 0 ==> l.tokenAddress in allowances
  }
}

=== FILE: find_locks.dfy ===
/**
 * Stage 1, lock discovery: probe every lock named by a NewLock or a
 * LockUpgraded event, keep the eligible ones and enumerate their keys.
 *
 * The lock contract's answers are an input (a LockProbe per address); a call
 * that reverts or fails is a None field, or a token id missing from
 * keyRecords. The wall clock is the input `now`.
 */
module FindLocks {
  import opened Common

  /** The first lock version that implements renewMembershipFor. */
  const MinVersion: nat := 10

  /** 2^256 - 1, the largest uint256. */
  const MaxUint256: nat := 0x1_0000_0000_0000_0000_0000_0000_0000_0000_0000_0000_0000_0000_0000_0000_0000_0000 - 1

  /** What ownerOf and keyExpirationTimestampFor answer for one token id. */
  datatype KeyRecord = KeyRecord(owner: Address, expiresAt: nat)

  /** The answers of one lock contract; None means that call throws. */
  datatype LockProbe = LockProbe(
    version: Option<nat>,
    gasRefundValue: Option<nat>,
    tokenAddress: Option<Address>,
    numberOfOwners: Option<nat>,
    expirationDuration: Option<nat>,
    keyPrice: Option<nat>,
    keyRecords: map<nat, KeyRecord>)

  /** The chain, as seen by the probes: the answers of the contract at each address. */
  type Chain = Address -> LockProbe

  /** The result of getLockState: the sentinel `{lockAddress, version: 0}` or a full record. */
  datatype LockState = Skipped(skippedAddress: Address) | Found(lock: Lock)
  {
    function Version(): nat
    {
      if Skipped? then 0 else lock.version
    }

    function LockAddress(): Address
    {
      if Skipped? then skippedAddress else lock.lockAddress
    }
  }

  datatype NewLockEvent = NewLockEvent(newLockAddress: Address, blockTimestamp: nat)

  datatype LockUpgradedEvent = LockUpgradedEvent(lockAddress: Address, version: nat, blockTimestamp: nat)

  // ---------------------------------------------------------------------------
  // Eligibility and key enumeration (getLockState)
  // ---------------------------------------------------------------------------

  /**
   * The guards of getLockState in their order: every read succeeds and passes
   * its check, and `now` has reached the first possible expiration
   * (reference timestamp + duration; equality passes).
   */
  predicate Eligible(p: LockProbe, referenceTimestamp: nat, now: nat)
  {
    && p.version.Some? && p.version.value >= MinVersion
    && p.gasRefundValue.Some? && !(p.gasRefundValue.value <= 0)
    && p.tokenAddress.Some? && p.tokenAddress.value != AddressZero
    && p.numberOfOwners.Some? && !(p.numberOfOwners.value <= 0)
    && p.expirationDuration.Some?
    && !(p.expirationDuration.value <= 0 || p.expirationDuration.value >= MaxUint256)
    && !(now < referenceTimestamp + p.expirationDuration.value)
    && p.keyPrice.Some?
  }

  /**
   * Once a lock is old enough for a key to have expired it stays so: a later
   * `now`, with the same answers, keeps it eligible.
   */
  lemma EligibleLater(p: LockProbe, referenceTimestamp: nat, now: nat, later: nat)
    requires Eligible(p, referenceTimestamp, now) && now <= later
    ensures Eligible(p, referenceTimestamp, later)
  {
  }

  /** The key recorded for token id `id`, flagged expired when its expiry is at or before `now`. */
  function KeyAt(records: map<nat, KeyRecord>, now: nat, id: nat): Key
    requires id in records
  {
    Key(id, records[id].owner, records[id].expiresAt <= now)
  }

  /**
   * The keys enumerated from `tokenId` up to `n`, stopping at the first id
   * whose reads throw.
   */
  function KeysFrom(records: map<nat, KeyRecord>, now: nat, tokenId: nat, n: nat): (keys: seq<Key>)
    requires 1 <= tokenId <= n + 1
    ensures |keys| <= n + 1 - tokenId
    ensures forall i :: 0 <= i < |keys| ==>
      && keys[i].tokenId == tokenId + i
      && keys[i].tokenId in records
      && keys[i].owner == records[keys[i].tokenId].owner
      && keys[i].isExpired == (records[keys[i].tokenId].expiresAt <= now)
    ensures tokenId + |keys| <= n ==> tokenId + |keys| !in records
    decreases n + 1 - tokenId
  {
    if tokenId > n || tokenId !in records then []
    else
      var rest := KeysFrom(records, now, tokenId + 1, n);
      var keys := [KeyAt(records, now, tokenId)] + rest;
      assert forall i :: 1 <= i < |keys| ==> keys[i] == rest[i - 1];
      keys
  }

  /**
   * The keys of a lock with `n` owners: ids 1, 2, ... in increasing order,
   * each with its owner and its expired flag (expiry at or before `now`); if
   * the reads for some id throw, the keys collected before it are kept and
   * enumeration stops there.
   */
  function EnumerateKeys(records: map<nat, KeyRecord>, n: nat, now: nat): (keys: seq<Key>)
    ensures |keys| <= n
    ensures forall i :: 0 <= i < |keys| ==>
      && keys[i].tokenId == i + 1
      && keys[i].tokenId in records
      && keys[i].owner == records[keys[i].tokenId].owner
      && keys[i].isExpired == (records[keys[i].tokenId].expiresAt <= now)
    ensures |keys| < n ==> |keys| + 1 !in records
  {
    KeysFrom(records, now, 1, n)
  }

  /** The key enumeration loop of getLockState. */
  method CollectKeys(records: map<nat, KeyRecord>, n: nat, now: nat) returns (keys: seq<Key>)
    ensures keys == EnumerateKeys(records, n, now)
  {
    keys := [];
    var tokenId := 1;
    while tokenId <= n
      invariant 1 <= tokenId <= n + 1
      invariant keys + KeysFrom(records, now, tokenId, n) == EnumerateKeys(records, n, now)
    {
      if tokenId !in records {
        // ownerOf or keyExpirationTimestampFor threw: the inner catch ends enumeration
        break;
      }
      keys := keys + [KeyAt(records, now, tokenId)];
      tokenId := tokenId + 1;
    }
  }

  /** What getLockState returns for a lock probed with reference time `referenceTimestamp`. */
  function LockStateOf(lockAddress: Address, referenceTimestamp: nat, p: LockProbe, now: nat): (r: LockState)
    ensures r.LockAddress() == lockAddress
    ensures r.Found? <==> Eligible(p, referenceTimestamp, now)
    ensures r.Found? ==>
      && r.lock.version == p.version.value
      && r.lock.gasRefundValue == p.gasRefundValue.value
      && r.lock.tokenAddress == p.tokenAddress.value
      && r.lock.numberOfOwners == p.numberOfOwners.value
      && r.lock.expirationDuration == p.expirationDuration.value
      && r.lock.keyPrice == p.keyPrice.value
    ensures r.Found? ==>
      && r.lock.version >= MinVersion
      && r.lock.gasRefundValue > 0
      && r.lock.tokenAddress != AddressZero
      && r.lock.numberOfOwners > 0
      && 0 < r.lock.expirationDuration < MaxUint256
      && referenceTimestamp + r.lock.expirationDuration <= now
      && r.lock.keys == EnumerateKeys(p.keyRecords, r.lock.numberOfOwners, now)
  {
    if !Eligible(p, referenceTimestamp, now) then Skipped(lockAddress)
    else
      var n := p.numberOfOwners.value;
      Found(Lock(lockAddress, p.version.value, p.gasRefundValue.value, p.tokenAddress.value,
                 n, p.expirationDuration.value, p.keyPrice.value, EnumerateKeys(p.keyRecords, n, now)))
  }

  /** getLockState: the guards, then the key enumeration loop. */
  method GetLockState(lockAddress: Address, referenceTimestamp: nat, p: LockProbe, now: nat) returns (r: LockState)
    ensures r == LockStateOf(lockAddress, referenceTimestamp, p, now)
  {
    if !Eligible(p, referenceTimestamp, now) {
      return Skipped(lockAddress);
    }
    var n := p.numberOfOwners.value;
    var keys := CollectKeys(p.keyRecords, n, now);
    r := Found(Lock(lockAddress, p.version.value, p.gasRefundValue.value, p.tokenAddress.value,
                    n, p.expirationDuration.value, p.keyPrice.value, keys));
  }

  /** Any failing guard or throwing read yields the sentinel for that address and nothing else. */
  lemma FailedGuardYieldsSentinel(lockAddress: Address, referenceTimestamp: nat, p: LockProbe, now: nat)
    requires
      || p.version.None? || p.version.value < MinVersion
      || p.gasRefundValue.None? || p.gasRefundValue.value <= 0
      || p.tokenAddress.None? || p.tokenAddress.value == AddressZero
      || p.numberOfOwners.None? || p.numberOfOwners.value <= 0
      || p.expirationDuration.None? || p.expirationDuration.value <= 0 || p.expirationDuration.value >= MaxUint256
      || now < referenceTimestamp + p.expirationDuration.value
      || p.keyPrice.None?
    ensures LockStateOf(lockAddress, referenceTimestamp, p, now) == Skipped(lockAddress)
    ensures LockStateOf(lockAddress, referenceTimestamp, p, now).Version() == 0
  {
  }

  /**
   * When every read succeeds and passes, the lock is "too fresh" exactly when
   * now < referenceTimestamp + duration; equality passes.
   */
  lemma TooFreshBoundary(lockAddress: Address, referenceTimestamp: nat, p: LockProbe, now: nat)
    requires p.version.Some? && p.version.value >= MinVersion
    requires p.gasRefundValue.Some? && p.gasRefundValue.value > 0
    requires p.tokenAddress.Some? && p.tokenAddress.value != AddressZero
    requires p.numberOfOwners.Some? && p.numberOfOwners.value > 0
    requires p.expirationDuration.Some? && 0 < p.expirationDuration.value < MaxUint256
    requires p.keyPrice.Some?
    ensures LockStateOf(lockAddress, referenceTimestamp, p, now).Skipped?
        <==> now < referenceTimestamp + p.expirationDuration.value
  {
  }

  /**
   * A failure part-way through enumeration keeps the lock with the keys read
   * before the failure: with ids 1..k readable and k + 1 not, exactly k keys.
   */
  lemma {:induction false} PartialEnumeration(records: map<nat, KeyRecord>, n: nat, now: nat, k: nat)
    requires k < n
    requires forall id :: 1 <= id <= k ==> id in records
    requires k + 1 !in records
    ensures |EnumerateKeys(records, n, now)| == k
  {
    var keys := EnumerateKeys(records, n, now);
    forall id | 1 <= id <= |keys|
      ensures id in records
    {
      assert keys[id - 1].tokenId == id;
    }
  }

  // ---------------------------------------------------------------------------
  // Merging the two event sources (main)
  // ---------------------------------------------------------------------------

  /** Filter on `version != 0`, keeping the records of the locks that were found. */
  function Relevant(states: seq<LockState>): (r: seq<Lock>)
    ensures |r| <= |states|
    ensures forall l :: l in r <==> Found(l) in states && l.version != 0
  {
    if states == [] then []
    else
      var rest := Relevant(states[1..]);
      assert forall s :: s in states[1..] ==> s in states;
      assert forall s :: s in states ==> s == states[0] || s in states[1..];
      if states[0].Version() != 0 then [states[0].lock] + rest else rest
  }

  /** Filtering keeps relative order: it distributes over concatenation. */
  lemma {:induction false} RelevantAppend(a: seq<LockState>, b: seq<LockState>)
    ensures Relevant(a + b) == Relevant(a) + Relevant(b)
  {
    if a != [] {
      assert (a + b)[1..] == a[1..] + b;
      RelevantAppend(a[1..], b);
    } else {
      assert a + b == b;
    }
  }

  function NewLockStates(events: seq<NewLockEvent>, chain: Chain, now: nat): seq<LockState>
  {
    seq(|events|, i requires 0 <= i < |events| =>
      LockStateOf(events[i].newLockAddress, events[i].blockTimestamp, chain(events[i].newLockAddress), now))
  }

  function UpgradedStates(events: seq<LockUpgradedEvent>, chain: Chain, now: nat): seq<LockState>
  {
    seq(|events|, i requires 0 <= i < |events| =>
      LockStateOf(events[i].lockAddress, events[i].blockTimestamp, chain(events[i].lockAddress), now))
  }

  /**
   * JavaScript strict equality between a lock record (an object) and an
   * address (a string): values of different types are never strictly equal.
   */
  predicate RecordStrictlyEqualsAddress(record: Lock, a: Address)
  {
    false
  }

  /**
   * `relevantLocks.indexOf(address)` over the array of lock records. Since no
   * record is strictly equal to an address, this always yields -1; it is kept
   * to show where the lookup of main goes wrong, and proves nothing about the
   * records themselves.
   */
  function IndexOf(records: seq<Lock>, a: Address): (i: int)
    ensures -1 <= i < |records|
    ensures i >= 0 ==> RecordStrictlyEqualsAddress(records[i], a)
    ensures i == -1 <==> forall j :: 0 <= j < |records| ==> !RecordStrictlyEqualsAddress(records[j], a)
  {
    if records == [] then -1
    else if RecordStrictlyEqualsAddress(records[0], a) then 0
    else
      var k := IndexOf(records[1..], a);
      if k < 0 then -1 else k + 1
  }


  /** Whether some record among `records` is for address `a`. */
  predicate Known(records: seq<Lock>, a: Address)
  {
    exists l :: l in records && l.lockAddress == a
  }

  /**
   * The LockUpgraded events kept by main as written: version exactly 10, and
   * an indexOf test against the NewLock-derived records that never matches.
   */
  function UpgradeCandidatesAsWritten(events: seq<LockUpgradedEvent>, relevant: seq<Lock>): (r: seq<LockUpgradedEvent>)
    ensures forall u :: u in r <==> u in events && u.version == MinVersion
  {
    if events == [] then []
    else
      var rest := UpgradeCandidatesAsWritten(events[1..], relevant);
      assert forall u :: u in events <==> u == events[0] || u in events[1..];
      if events[0].version == MinVersion && IndexOf(relevant, events[0].lockAddress) < 0
      then [events[0]] + rest else rest
  }

  /**
   * The LockUpgraded events main evidently means to keep: version exactly 10
   * and no NewLock-derived record for the same address.
   */
  function UpgradeCandidates(events: seq<LockUpgradedEvent>, relevant: seq<Lock>): (r: seq<LockUpgradedEvent>)
    ensures forall u :: u in r <==> u in events && u.version == MinVersion && !Known(relevant, u.lockAddress)
  {
    if events == [] then []
    else
      var rest := UpgradeCandidates(events[1..], relevant);
      assert forall u :: u in events <==> u == events[0] || u in events[1..];
      if events[0].version == MinVersion && !Known(relevant, events[0].lockAddress)
      then [events[0]] + rest else rest
  }

  /** The guards of getLockState, as they show in a kept record's own fields. */
  predicate Guarded(l: Lock)
  {
    && l.version >= MinVersion
    && l.gasRefundValue > 0
    && l.tokenAddress != AddressZero
    && l.numberOfOwners > 0
    && 0 < l.expirationDuration < MaxUint256
  }

  lemma NewLockStatesGuarded(events: seq<NewLockEvent>, chain: Chain, now: nat)
    ensures forall l :: Found(l) in NewLockStates(events, chain, now) ==> Guarded(l)
  {
    var states := NewLockStates(events, chain, now);
    forall l | Found(l) in states
      ensures Guarded(l)
    {
      var i :| 0 <= i < |states| && states[i] == Found(l);
      var e := events[i];
      assert states[i] == LockStateOf(e.newLockAddress, e.blockTimestamp, chain(e.newLockAddress), now);
    }
  }

  lemma UpgradedStatesGuarded(events: seq<LockUpgradedEvent>, chain: Chain, now: nat)
    ensures forall l :: Found(l) in UpgradedStates(events, chain, now) ==> Guarded(l)
  {
    var states := UpgradedStates(events, chain, now);
    forall l | Found(l) in states
      ensures Guarded(l)
    {
      var i :| 0 <= i < |states| && states[i] == Found(l);
      var e := events[i];
      assert states[i] == LockStateOf(e.lockAddress, e.blockTimestamp, chain(e.lockAddress), now);
    }
  }

  /**
   * main as written: the NewLock-derived locks, then the locks of the
   * version-10 LockUpgraded events, none of them excluded. Every lock kept
   * passed the guards of getLockState.
   */
  function FindLocksAsWritten(newLocks: seq<NewLockEvent>, upgrades: seq<LockUpgradedEvent>, chain: Chain, now: nat): (r: seq<Lock>)
    ensures |r| <= |newLocks| + |upgrades|
    ensures forall l :: l in r ==> Guarded(l)
  {
    var fromNew := Relevant(NewLockStates(newLocks, chain, now));
    NewLockStatesGuarded(newLocks, chain, now);
    var cands := UpgradeCandidatesAsWritten(upgrades, fromNew);
    UpgradedStatesGuarded(cands, chain, now);
    assert |cands| <= |upgrades| by { CandidatesAsWrittenShorter(upgrades, fromNew); }
    fromNew + Relevant(UpgradedStates(cands, chain, now))
  }

  /**
   * main with the deduplication it intends: the NewLock-derived locks, then
   * the locks of the other version-10 LockUpgraded events. Every lock kept
   * passed the guards of getLockState.
   */
  function FindLocks(newLocks: seq<NewLockEvent>, upgrades: seq<LockUpgradedEvent>, chain: Chain, now: nat): (r: seq<Lock>)
    ensures |r| <= |newLocks| + |upgrades|
    ensures forall l :: l in r ==> Guarded(l)
  {
    var fromNew := Relevant(NewLockStates(newLocks, chain, now));
    NewLockStatesGuarded(newLocks, chain, now);
    var cands := UpgradeCandidates(upgrades, fromNew);
    UpgradedStatesGuarded(cands, chain, now);
    assert |cands| <= |upgrades| by { CandidatesShorter(upgrades, fromNew); }
    fromNew + Relevant(UpgradedStates(cands, chain, now))
  }

  lemma {:induction false} CandidatesAsWrittenShorter(events: seq<LockUpgradedEvent>, relevant: seq<Lock>)
    ensures |UpgradeCandidatesAsWritten(events, relevant)| <= |events|
  {
    if events != [] {
      CandidatesAsWrittenShorter(events[1..], relevant);
    }
  }

  lemma {:induction false} CandidatesShorter(events: seq<LockUpgradedEvent>, relevant: seq<Lock>)
    ensures |UpgradeCandidates(events, relevant)| <= |events|
  {
    if events != [] {
      CandidatesShorter(events[1..], relevant);
    }
  }

  /** A record from a found lock state is never filtered out: its version is at least 10. */
  lemma FoundIsRelevant(states: seq<LockState>, l: Lock)
    requires Found(l) in states
    requires forall s :: s in states ==> s.Found? ==> s.lock.version >= MinVersion
    ensures l in Relevant(states)
  {
  }

  /** Record `l` is what getLockState returned for an eligible lock named by a NewLock event. */
  predicate FromNewLock(newLocks: seq<NewLockEvent>, chain: Chain, now: nat, l: Lock)
  {
    exists e :: e in newLocks && e.newLockAddress == l.lockAddress
      && Eligible(chain(e.newLockAddress), e.blockTimestamp, now)
      && LockStateOf(e.newLockAddress, e.blockTimestamp, chain(e.newLockAddress), now) == Found(l)
  }

  /** Record `l` is what getLockState returned for an eligible lock named by a version-10 LockUpgraded event. */
  predicate FromUpgrade(upgrades: seq<LockUpgradedEvent>, chain: Chain, now: nat, l: Lock)
  {
    exists u :: u in upgrades && u.version == MinVersion && u.lockAddress == l.lockAddress
      && Eligible(chain(u.lockAddress), u.blockTimestamp, now)
      && LockStateOf(u.lockAddress, u.blockTimestamp, chain(u.lockAddress), now) == Found(l)
  }

  /** Soundness of a merge whatever subset of the version-10 upgrade events it probes. */
  lemma MergeSound(newLocks: seq<NewLockEvent>, upgrades: seq<LockUpgradedEvent>, cands: seq<LockUpgradedEvent>,
                   chain: Chain, now: nat, l: Lock)
    requires forall u :: u in cands ==> u in upgrades && u.version == MinVersion
    requires l in Relevant(NewLockStates(newLocks, chain, now)) + Relevant(UpgradedStates(cands, chain, now))
    ensures FromNewLock(newLocks, chain, now, l) || FromUpgrade(upgrades, chain, now, l)
  {
    var states := NewLockStates(newLocks, chain, now);
    var upStates := UpgradedStates(cands, chain, now);
    if l in Relevant(states) {
      var i :| 0 <= i < |states| && states[i] == Found(l);
      var e := newLocks[i];
      assert e in newLocks;
      assert states[i] == LockStateOf(e.newLockAddress, e.blockTimestamp, chain(e.newLockAddress), now);
    } else {
      assert l in Relevant(upStates);
      var i :| 0 <= i < |upStates| && upStates[i] == Found(l);
      var u := cands[i];
      assert u in cands;
      assert upStates[i] == LockStateOf(u.lockAddress, u.blockTimestamp, chain(u.lockAddress), now);
    }
  }

  /**
   * Every lock in the output of either merge is the record getLockState
   * returned for an eligible lock named by a NewLock event or by a version-10
   * LockUpgraded event.
   */
  lemma FindLocksSound(newLocks: seq<NewLockEvent>, upgrades: seq<LockUpgradedEvent>, chain: Chain, now: nat, l: Lock)
    ensures l in FindLocksAsWritten(newLocks, upgrades, chain, now) ==>
      FromNewLock(newLocks, chain, now, l) || FromUpgrade(upgrades, chain, now, l)
    ensures l in FindLocks(newLocks, upgrades, chain, now) ==>
      FromNewLock(newLocks, chain, now, l) || FromUpgrade(upgrades, chain, now, l)
  {
    var fromNew := Relevant(NewLockStates(newLocks, chain, now));
    if l in FindLocksAsWritten(newLocks, upgrades, chain, now) {
      MergeSound(newLocks, upgrades, UpgradeCandidatesAsWritten(upgrades, fromNew), chain, now, l);
    }
    if l in FindLocks(newLocks, upgrades, chain, now) {
      MergeSound(newLocks, upgrades, UpgradeCandidates(upgrades, fromNew), chain, now, l);
    }
  }

  /** Every eligible lock named by a NewLock event is in the output of both merges. */
  lemma NewLockEligibleIsFound(newLocks: seq<NewLockEvent>, upgrades: seq<LockUpgradedEvent>, chain: Chain, now: nat, i: nat)
    requires i < |newLocks|
    requires Eligible(chain(newLocks[i].newLockAddress), newLocks[i].blockTimestamp, now)
    ensures var l := LockStateOf(newLocks[i].newLockAddress, newLocks[i].blockTimestamp, chain(newLocks[i].newLockAddress), now).lock;
      l in FindLocksAsWritten(newLocks, upgrades, chain, now) && l in FindLocks(newLocks, upgrades, chain, now)
  {
    var states := NewLockStates(newLocks, chain, now);
    assert states[i] in states;
  }

  /** The record of an eligible lock does not depend on the reference timestamp it was probed with. */
  lemma FoundRecordIgnoresTimestamp(a: Address, t1: nat, t2: nat, p: LockProbe, now: nat)
    requires LockStateOf(a, t1, p, now).Found? && LockStateOf(a, t2, p, now).Found?
    ensures LockStateOf(a, t1, p, now) == LockStateOf(a, t2, p, now)
  {
  }

  /**
   * Every eligible lock named by a version-10 LockUpgraded event is in the
   * output of both merges: as written it is probed again; in the intended
   * merge it is either probed or already there from its NewLock event.
   */
  lemma UpgradeEligibleIsFound(newLocks: seq<NewLockEvent>, upgrades: seq<LockUpgradedEvent>, chain: Chain, now: nat, i: nat)
    requires i < |upgrades| && upgrades[i].version == MinVersion
    requires Eligible(chain(upgrades[i].lockAddress), upgrades[i].blockTimestamp, now)
    ensures var l := LockStateOf(upgrades[i].lockAddress, upgrades[i].blockTimestamp, chain(upgrades[i].lockAddress), now).lock;
      l in FindLocksAsWritten(newLocks, upgrades, chain, now) && l in FindLocks(newLocks, upgrades, chain, now)
  {
    var u := upgrades[i];
    var a := u.lockAddress;
    var st := LockStateOf(a, u.blockTimestamp, chain(a), now);
    assert u in upgrades;
    var states := NewLockStates(newLocks, chain, now);
    var fromNew := Relevant(states);
    FoundInProbed(UpgradeCandidatesAsWritten(upgrades, fromNew), u, chain, now);
    if Known(fromNew, a) {
      var l :| l in fromNew && l.lockAddress == a;
      var j :| 0 <= j < |states| && states[j] == Found(l);
      var e := newLocks[j];
      assert states[j] == LockStateOf(e.newLockAddress, e.blockTimestamp, chain(e.newLockAddress), now);
      assert e.newLockAddress == a;
      FoundRecordIgnoresTimestamp(a, e.blockTimestamp, u.blockTimestamp, chain(a), now);
    } else {
      FoundInProbed(UpgradeCandidates(upgrades, fromNew), u, chain, now);
    }
  }

  lemma FoundInProbed(cands: seq<LockUpgradedEvent>, u: LockUpgradedEvent, chain: Chain, now: nat)
    requires u in cands
    requires Eligible(chain(u.lockAddress), u.blockTimestamp, now)
    ensures LockStateOf(u.lockAddress, u.blockTimestamp, chain(u.lockAddress), now).lock in Relevant(UpgradedStates(cands, chain, now))
  {
    var k :| 0 <= k < |cands| && cands[k] == u;
    var upStates := UpgradedStates(cands, chain, now);
    assert upStates[k] in upStates;
  }

  lemma NewLockStatesAppend(a: seq<NewLockEvent>, b: seq<NewLockEvent>, chain: Chain, now: nat)
    ensures NewLockStates(a + b, chain, now) == NewLockStates(a, chain, now) + NewLockStates(b, chain, now)
  {
    assert forall i :: 0 <= i < |a + b| ==> (a + b)[i] == if i < |a| then a[i] else b[i - |a|];
  }

  lemma UpgradedStatesAppend(a: seq<LockUpgradedEvent>, b: seq<LockUpgradedEvent>, chain: Chain, now: nat)
    ensures UpgradedStates(a + b, chain, now) == UpgradedStates(a, chain, now) + UpgradedStates(b, chain, now)
  {
    assert forall i :: 0 <= i < |a + b| ==> (a + b)[i] == if i < |a| then a[i] else b[i - |a|];
  }

  /** Both upgrade filters keep the events' relative order: they distribute over concatenation. */
  lemma {:induction false} CandidatesAppend(a: seq<LockUpgradedEvent>, b: seq<LockUpgradedEvent>, relevant: seq<Lock>)
    ensures UpgradeCandidatesAsWritten(a + b, relevant) == UpgradeCandidatesAsWritten(a, relevant) + UpgradeCandidatesAsWritten(b, relevant)
    ensures UpgradeCandidates(a + b, relevant) == UpgradeCandidates(a, relevant) + UpgradeCandidates(b, relevant)
  {
    if a != [] {
      assert (a + b)[1..] == a[1..] + b;
      CandidatesAppend(a[1..], b, relevant);
    } else {
      assert a + b == b;
    }
  }

  /** The locks derived from a list of upgrade events, through a given filter's output. */
  function FromUpgrades(cands: seq<LockUpgradedEvent>, chain: Chain, now: nat): seq<Lock>
  {
    Relevant(UpgradedStates(cands, chain, now))
  }

  lemma UpgradeOrder(cands1: seq<LockUpgradedEvent>, cands2: seq<LockUpgradedEvent>, chain: Chain, now: nat)
    ensures FromUpgrades(cands1 + cands2, chain, now) == FromUpgrades(cands1, chain, now) + FromUpgrades(cands2, chain, now)
  {
    UpgradedStatesAppend(cands1, cands2, chain, now);
    RelevantAppend(UpgradedStates(cands1, chain, now), UpgradedStates(cands2, chain, now));
  }

  /** The NewLock-derived locks keep event order: splitting the events splits them. */
  lemma NewLockOrder(newLocks: seq<NewLockEvent>, chain: Chain, now: nat, k: nat)
    requires k <= |newLocks|
    ensures Relevant(NewLockStates(newLocks, chain, now))
         == Relevant(NewLockStates(newLocks[..k], chain, now)) + Relevant(NewLockStates(newLocks[k..], chain, now))
  {
    assert newLocks == newLocks[..k] + newLocks[k..];
    NewLockStatesAppend(newLocks[..k], newLocks[k..], chain, now);
    RelevantAppend(NewLockStates(newLocks[..k], chain, now), NewLockStates(newLocks[k..], chain, now));
  }

  lemma AsWrittenSplit(upgrades: seq<LockUpgradedEvent>, fromNew: seq<Lock>, chain: Chain, now: nat, m: nat)
    requires m <= |upgrades|
    ensures FromUpgrades(UpgradeCandidatesAsWritten(upgrades, fromNew), chain, now)
         == FromUpgrades(UpgradeCandidatesAsWritten(upgrades[..m], fromNew), chain, now)
          + FromUpgrades(UpgradeCandidatesAsWritten(upgrades[m..], fromNew), chain, now)
  {
    assert upgrades == upgrades[..m] + upgrades[m..];
    CandidatesAppend(upgrades[..m], upgrades[m..], fromNew);
    UpgradeOrder(UpgradeCandidatesAsWritten(upgrades[..m], fromNew), UpgradeCandidatesAsWritten(upgrades[m..], fromNew), chain, now);
  }

  lemma AsWrittenMerge(newLocks: seq<NewLockEvent>, upgrades: seq<LockUpgradedEvent>, chain: Chain, now: nat)
    ensures var fromNew := Relevant(NewLockStates(newLocks, chain, now));
      FindLocksAsWritten(newLocks, upgrades, chain, now) == fromNew + FromUpgrades(UpgradeCandidatesAsWritten(upgrades, fromNew), chain, now)
  {
  }

  lemma AsWrittenUpgradeOrder(newLocks: seq<NewLockEvent>, upgrades: seq<LockUpgradedEvent>, chain: Chain, now: nat, m: nat)
    requires m <= |upgrades|
    ensures var fromNew := Relevant(NewLockStates(newLocks, chain, now));
      FindLocksAsWritten(newLocks, upgrades, chain, now)
         == fromNew + FromUpgrades(UpgradeCandidatesAsWritten(upgrades[..m], fromNew), chain, now)
                    + FromUpgrades(UpgradeCandidatesAsWritten(upgrades[m..], fromNew), chain, now)
  {
    var fromNew := Relevant(NewLockStates(newLocks, chain, now));
    AsWrittenMerge(newLocks, upgrades, chain, now);
    AsWrittenSplit(upgrades, fromNew, chain, now, m);
  }

  lemma IntendedSplit(upgrades: seq<LockUpgradedEvent>, fromNew: seq<Lock>, chain: Chain, now: nat, m: nat)
    requires m <= |upgrades|
    ensures FromUpgrades(UpgradeCandidates(upgrades, fromNew), chain, now)
         == FromUpgrades(UpgradeCandidates(upgrades[..m], fromNew), chain, now)
          + FromUpgrades(UpgradeCandidates(upgrades[m..], fromNew), chain, now)
  {
    assert upgrades == upgrades[..m] + upgrades[m..];
    CandidatesAppend(upgrades[..m], upgrades[m..], fromNew);
    UpgradeOrder(UpgradeCandidates(upgrades[..m], fromNew), UpgradeCandidates(upgrades[m..], fromNew), chain, now);
  }

  lemma IntendedMerge(newLocks: seq<NewLockEvent>, upgrades: seq<LockUpgradedEvent>, chain: Chain, now: nat)
    ensures var fromNew := Relevant(NewLockStates(newLocks, chain, now));
      FindLocks(newLocks, upgrades, chain, now) == fromNew + FromUpgrades(UpgradeCandidates(upgrades, fromNew), chain, now)
  {
  }

  lemma IntendedUpgradeOrder(newLocks: seq<NewLockEvent>, upgrades: seq<LockUpgradedEvent>, chain: Chain, now: nat, m: nat)
    requires m <= |upgrades|
    ensures var fromNew := Relevant(NewLockStates(newLocks, chain, now));
      FindLocks(newLocks, upgrades, chain, now)
         == fromNew + FromUpgrades(UpgradeCandidates(upgrades[..m], fromNew), chain, now)
                    + FromUpgrades(UpgradeCandidates(upgrades[m..], fromNew), chain, now)
  {
    var fromNew := Relevant(NewLockStates(newLocks, chain, now));
    IntendedMerge(newLocks, upgrades, chain, now);
    IntendedSplit(upgrades, fromNew, chain, now, m);
  }

  /**
   * Both merges list the NewLock-derived locks first, in event order, then the
   * upgrade-derived ones, in event order: splitting either event list at any
   * point splits that part of the output at the matching point.
   */
  lemma FindLocksOrder(newLocks: seq<NewLockEvent>, upgrades: seq<LockUpgradedEvent>, chain: Chain, now: nat, k: nat, m: nat)
    requires k <= |newLocks| && m <= |upgrades|
    ensures var fromNew := Relevant(NewLockStates(newLocks, chain, now));
      && fromNew == Relevant(NewLockStates(newLocks[..k], chain, now)) + Relevant(NewLockStates(newLocks[k..], chain, now))
      && FindLocksAsWritten(newLocks, upgrades, chain, now)
         == fromNew + FromUpgrades(UpgradeCandidatesAsWritten(upgrades[..m], fromNew), chain, now)
                    + FromUpgrades(UpgradeCandidatesAsWritten(upgrades[m..], fromNew), chain, now)
      && FindLocks(newLocks, upgrades, chain, now)
         == fromNew + FromUpgrades(UpgradeCandidates(upgrades[..m], fromNew), chain, now)
                    + FromUpgrades(UpgradeCandidates(upgrades[m..], fromNew), chain, now)
  {
    NewLockOrder(newLocks, chain, now, k);
    AsWrittenUpgradeOrder(newLocks, upgrades, chain, now, m);
    IntendedUpgradeOrder(newLocks, upgrades, chain, now, m);
  }

  /** No LockUpgraded-derived lock repeats the address of a NewLock-derived one. */
  lemma NoDuplicateAcrossSources(newLocks: seq<NewLockEvent>, upgrades: seq<LockUpgradedEvent>, chain: Chain, now: nat)
    ensures var fromNew := Relevant(NewLockStates(newLocks, chain, now));
      var fromUpgrades := Relevant(UpgradedStates(UpgradeCandidates(upgrades, fromNew), chain, now));
      forall l :: l in fromUpgrades ==> !Known(fromNew, l.lockAddress)
  {
    var fromNew := Relevant(NewLockStates(newLocks, chain, now));
    var cands := UpgradeCandidates(upgrades, fromNew);
    var upStates := UpgradedStates(cands, chain, now);
    forall l | l in Relevant(upStates)
      ensures !Known(fromNew, l.lockAddress)
    {
      var i :| 0 <= i < |upStates| && upStates[i] == Found(l);
      var u := cands[i];
      assert u in cands;
      assert upStates[i] == LockStateOf(u.lockAddress, u.blockTimestamp, chain(u.lockAddress), now);
    }
  }

  /** The indexOf test of main never excludes anything. */
  lemma IndexOfNeverMatches(records: seq<Lock>, a: Address)
    ensures IndexOf(records, a) == -1
  {
  }

  /**
   * As written, a lock found by a NewLock event and upgraded to version 10
   * appears twice; the intended merge lists it once.
   */
  lemma AsWrittenDuplicatesLock()
    ensures var p := LockProbe(Some(10), Some(1), Some(1), Some(1), Some(1), Some(0), map[1 := KeyRecord(2, 0)]);
      var chain: Chain := a => p;
      var asWritten := FindLocksAsWritten([NewLockEvent(7, 0)], [LockUpgradedEvent(7, 10, 0)], chain, 1);
      var intended := FindLocks([NewLockEvent(7, 0)], [LockUpgradedEvent(7, 10, 0)], chain, 1);
      && |asWritten| == 2 && asWritten[0].lockAddress == asWritten[1].lockAddress == 7
      && |intended| == 1 && intended[0].lockAddress == 7
  {
    var p := LockProbe(Some(10), Some(1), Some(1), Some(1), Some(1), Some(0), map[1 := KeyRecord(2, 0)]);
    var chain: Chain := a => p;
    assert Eligible(p, 0, 1);
    var found := LockStateOf(7, 0, p, 1);
    var states := NewLockStates([NewLockEvent(7, 0)], chain, 1);
    assert states == [found];
    assert Relevant([found]) == [found.lock];
    var fromNew := [found.lock];
    var u := LockUpgradedEvent(7, 10, 0);
    assert UpgradeCandidatesAsWritten([u], fromNew) == [u];
    assert UpgradedStates([u], chain, 1) == [found];
    assert Known(fromNew, 7);
    assert UpgradeCandidates([u], fromNew) == [];
    assert UpgradedStates([], chain, 1) == [];
  }
}

=== FILE: find_profitable.dfy ===
/**
 * Stage 3, opportunity ranking: value each lock's refund in ETH, order the
 * locks by that value, drop those at or below the cost threshold, then walk
 * the keys of the remaining locks and select renewals while drawing down the
 * owners' shared allowances.
 *
 * Inputs stand for the outside world: `prices` is the price service's answer
 * (wei per whole token, by token address), `decimalsOf` and `balanceOf` are
 * the token contracts' answers.
 */
module FindProfitable {
  import opened Common

  /**
   * A lock's refund in ETH, kept exact: amount / 10^exponent, where amount is
   * gasRefundValue times the token price in wei and exponent is the token's
   * decimals plus the 18 decimals of the price.
   */
  datatype RefundEntry = RefundEntry(lockAddress: Address, amount: nat, exponent: nat)

  /**
   * A selected renewal. The stage output holds `lock` and `tokenId` of each;
   * token, owner and price record what the renewal was charged to.
   */
  datatype Pick = Pick(lock: Address, tokenId: nat, token: Address, owner: Address, price: nat)

  /** The errors that abort the stage. */
  datatype Crash = MissingPrice(token: Address)

  datatype Result<T> = Ok(value: T) | Err(crash: Crash)

  /** How a run of the stage ends. */
  datatype Outcome = NothingToDo | Crashed(reason: Crash) | Selected(picks: seq<Pick>)

  function Pow10(e: nat): (r: nat)
    ensures r >= 1
  {
    if e == 0 then 1 else 10 * Pow10(e - 1)
  }

  // ---------------------------------------------------------------------------
  // Refund values and the cost threshold
  // ---------------------------------------------------------------------------

  function RefundOf(lock: Lock, priceWei: nat, decimals: nat): RefundEntry
  {
    RefundEntry(lock.lockAddress, lock.gasRefundValue * priceWei, decimals + 18)
  }

  /**
   * The refund entry of every lock, in lock order; the first lock whose token
   * has no price aborts the stage.
   */
  function RefundEntries(locks: seq<Lock>, prices: map<Address, nat>, decimalsOf: Address -> nat): (r: Result<seq<RefundEntry>>)
    ensures r.Ok? <==> forall l :: l in locks ==> l.tokenAddress in prices
    ensures r.Err? ==> exists l :: l in locks && l.tokenAddress !in prices && r.crash == MissingPrice(l.tokenAddress)
    ensures r.Ok? ==> |r.value| == |locks| && forall i :: 0 <= i < |locks| ==>
      && r.value[i].lockAddress == locks[i].lockAddress
      && r.value[i].amount == locks[i].gasRefundValue * prices[locks[i].tokenAddress]
      && r.value[i].exponent == decimalsOf(locks[i].tokenAddress) + 18
  {
    if locks == [] then Ok([])
    else
      var token := locks[0].tokenAddress;
      assert forall l :: l in locks <==> l == locks[0] || l in locks[1..];
      if token !in prices then Err(MissingPrice(token))
      else match RefundEntries(locks[1..], prices, decimalsOf)
        case Err(c) => Err(c)
        case Ok(rest) => Ok([RefundOf(locks[0], prices[token], decimalsOf(token))] + rest)
  }

  /** Refund value of `a` is at most that of `b`: a.amount / 10^a.exponent <= b.amount / 10^b.exponent. */
  predicate AtMost(a: RefundEntry, b: RefundEntry)
  {
    a.amount * Pow10(b.exponent) <= b.amount * Pow10(a.exponent)
  }

  /** The refund value is strictly above the 0.02 ETH cost threshold, that is amount / 10^exponent > 1/50. */
  predicate Profitable(e: RefundEntry)
  {
    e.amount * 50 > Pow10(e.exponent)
  }

  lemma MulLeMono(x: nat, y: nat, k: nat)
    requires x <= y
    ensures x * k <= y * k
  {
  }

  lemma MulLeCancel(x: nat, y: nat, k: nat)
    requires k >= 1 && x * k <= y * k
    ensures x <= y
  {
    if x > y {
      MulLeMono(y + 1, x, k);
    }
  }

  lemma MulSwap(x: nat, y: nat, z: nat)
    ensures (x * y) * z == (x * z) * y
  {
  }

  /** Cross-multiplied comparison is transitive when the middle denominator is positive. */
  lemma CrossTransitive(x: nat, y: nat, z: nat, px: nat, py: nat, pz: nat)
    requires py >= 1
    requires x * py <= y * px && y * pz <= z * py
    ensures x * pz <= z * px
  {
    MulLeMono(x * py, y * px, pz);
    MulLeMono(y * pz, z * py, px);
    MulSwap(x, py, pz);
    MulSwap(y, px, pz);
    MulSwap(z, py, px);
    MulLeCancel(x * pz, z * px, py);
  }

  lemma AtMostTransitive(a: RefundEntry, b: RefundEntry, c: RefundEntry)
    requires AtMost(a, b) && AtMost(b, c)
    ensures AtMost(a, c)
  {
    CrossTransitive(a.amount, b.amount, c.amount, Pow10(a.exponent), Pow10(b.exponent), Pow10(c.exponent));
  }

  // ---------------------------------------------------------------------------
  // Ordering by descending refund value
  // ---------------------------------------------------------------------------

  /** Highest refund value first. */
  predicate Descending(s: seq<RefundEntry>)
  {
    forall i, j :: 0 <= i < j < |s| ==> AtMost(s[j], s[i])
  }

  lemma ConsDescending(x: RefundEntry, rest: seq<RefundEntry>)
    requires Descending(rest)
    requires forall j :: 0 <= j < |rest| ==> AtMost(rest[j], x)
    ensures Descending([x] + rest)
  {
    var s := [x] + rest;
    forall i, j | 0 <= i < j < |s|
      ensures AtMost(s[j], s[i])
    {
      assert s[j] == rest[j - 1];
      if i > 0 {
        assert s[i] == rest[i - 1];
      }
    }
  }

  lemma AboveHead(e: RefundEntry, s: seq<RefundEntry>)
    requires Descending(s) && s != [] && AtMost(s[0], e)
    ensures forall k :: 0 <= k < |s| ==> AtMost(s[k], e)
  {
    forall k | 0 <= k < |s|
      ensures AtMost(s[k], e)
    {
      if k > 0 {
        AtMostTransitive(s[k], s[0], e);
      }
    }
  }

  lemma BelowHead(head: RefundEntry, s: seq<RefundEntry>, r: seq<RefundEntry>, extra: multiset<RefundEntry>)
    requires forall k :: 0 <= k < |s| ==> AtMost(s[k], head)
    requires forall x :: x in extra ==> AtMost(x, head)
    requires multiset(r) == multiset(s) + extra
    ensures forall j :: 0 <= j < |r| ==> AtMost(r[j], head)
  {
    forall j | 0 <= j < |r|
      ensures AtMost(r[j], head)
    {
      assert r[j] in multiset(r);
      if r[j] !in extra {
        assert r[j] in multiset(s);
        var k :| 0 <= k < |s| && s[k] == r[j];
      }
    }
  }

  /** Insert `e` into a descending sequence, before the first entry whose value is at most e's. */
  function InsertDesc(e: RefundEntry, s: seq<RefundEntry>): (r: seq<RefundEntry>)
    requires Descending(s)
    ensures Descending(r)
    ensures multiset(r) == multiset(s) + multiset{e}
  {
    if s == [] then [e]
    else if AtMost(s[0], e) then
      AboveHead(e, s);
      ConsDescending(e, s);
      [e] + s
    else
      assert Descending(s[1..]);
      var rest := InsertDesc(e, s[1..]);
      assert s == [s[0]] + s[1..];
      BelowHead(s[0], s[1..], rest, multiset{e});
      ConsDescending(s[0], rest);
      [s[0]] + rest
  }

  /**
   * The ordering the comparator is evidently meant to produce: the same
   * entries, highest refund value first.
   */
  function SortByRefund(s: seq<RefundEntry>): (r: seq<RefundEntry>)
    ensures Descending(r)
    ensures multiset(r) == multiset(s)
  {
    if s == [] then []
    else
      assert s == [s[0]] + s[1..];
      InsertDesc(s[0], SortByRefund(s[1..]))
  }

  /**
   * The sort call as written: gasRefundInETH is the decimal string that
   * formatUnits returns, so the comparator calls the legacy string method
   * `sub`, which ignores its argument and yields "<sub>...</sub>". The sort
   * converts that to a number, gets NaN, and counts NaN as "equal"; every
   * pair compares equal, and the stable sort leaves the input as it was.
   */
  function SortAsWritten(s: seq<RefundEntry>): seq<RefundEntry>
  {
    s
  }

  /** The locks strictly above the cost threshold, in their order. */
  function AboveThreshold(s: seq<RefundEntry>): (r: seq<RefundEntry>)
    ensures forall e :: e in r <==> e in s && Profitable(e)
    ensures Descending(s) ==> Descending(r)
  {
    if s == [] then []
    else
      var rest := AboveThreshold(s[1..]);
      assert forall e :: e in s <==> e == s[0] || e in s[1..];
      if Profitable(s[0]) then
        if Descending(s) then
          assert Descending(s[1..]);
          forall j | 0 <= j < |rest| ensures AtMost(rest[j], s[0]) {
            assert rest[j] in s[1..];
            var k :| 0 <= k < |s[1..]| && s[1..][k] == rest[j];
            assert s[k + 1] == rest[j];
          }
          ConsDescending(s[0], rest);
          [s[0]] + rest
        else [s[0]] + rest
      else rest
  }

  lemma ConcatAssoc(u: seq<RefundEntry>, v: seq<RefundEntry>, w: seq<RefundEntry>)
    ensures u + (v + w) == (u + v) + w
  {
  }

  /** The head, if profitable, followed by the filtered tail. */
  function KeepIfProfitable(x: RefundEntry): seq<RefundEntry>
  {
    if Profitable(x) then [x] else []
  }

  lemma AboveThresholdCons(x: RefundEntry, t: seq<RefundEntry>)
    ensures AboveThreshold([x] + t) == KeepIfProfitable(x) + AboveThreshold(t)
  {
    var s := [x] + t;
    assert s[0] == x && s[1..] == t;
    if !Profitable(x) {
      assert KeepIfProfitable(x) + AboveThreshold(t) == AboveThreshold(t);
    }
  }

  /** The filter keeps every profitable entry as often as it occurs, and no other. */
  lemma {:induction false} AboveThresholdCounts(s: seq<RefundEntry>)
    ensures forall e :: multiset(AboveThreshold(s))[e] == if Profitable(e) then multiset(s)[e] else 0
  {
    if s != [] {
      var x, t := s[0], s[1..];
      assert s == [x] + t;
      AboveThresholdCons(x, t);
      AboveThresholdCounts(t);
      assert multiset(s) == multiset{x} + multiset(t);
      assert multiset(AboveThreshold(s)) == multiset(KeepIfProfitable(x)) + multiset(AboveThreshold(t));
    }
  }

  /** The filter keeps relative order: it distributes over concatenation. */
  lemma {:induction false} AboveThresholdAppend(a: seq<RefundEntry>, b: seq<RefundEntry>)
    ensures AboveThreshold(a + b) == AboveThreshold(a) + AboveThreshold(b)
  {
    if a == [] {
      assert a + b == b;
    } else {
      var x, t := a[0], a[1..];
      assert a == [x] + t;
      assert a + b == [x] + (t + b);
      AboveThresholdCons(x, t + b);
      AboveThresholdCons(x, t);
      AboveThresholdAppend(t, b);
      ConcatAssoc(KeepIfProfitable(x), AboveThreshold(t), AboveThreshold(b));
    }
  }

  /** A refund at least as high as a profitable one is profitable too. */
  lemma ProfitableUpward(a: RefundEntry, b: RefundEntry)
    requires AtMost(a, b) && Profitable(a)
    ensures Profitable(b)
  {
    var pa, pb := Pow10(a.exponent), Pow10(b.exponent);
    MulLeMono(pa + 1, a.amount * 50, pb);
    MulLeMono(a.amount * pb, b.amount * pa, 50);
    MulSwap(a.amount, 50, pb);
    MulSwap(b.amount, 50, pa);
    if b.amount * 50 <= pb {
      MulLeMono(b.amount * 50, pb, pa);
      assert false;
    }
  }

  /** In a descending sequence the profitable entries come first. */
  lemma ProfitableFormPrefix(s: seq<RefundEntry>, i: nat, j: nat)
    requires Descending(s) && i < j < |s| && Profitable(s[j])
    ensures Profitable(s[i])
  {
    ProfitableUpward(s[j], s[i]);
  }

  /** Any two refunds are comparable, so the descending order is total. */
  lemma AtMostTotal(a: RefundEntry, b: RefundEntry)
    ensures AtMost(a, b) || AtMost(b, a)
  {
  }

  /**
   * Among locks priced in the same token, a higher gas refund never ranks
   * lower, and with a non-zero price the ranking is exactly by gas refund.
   */
  lemma RefundOrderSameToken(a: Lock, b: Lock, priceWei: nat, decimals: nat)
    ensures a.gasRefundValue <= b.gasRefundValue ==> AtMost(RefundOf(a, priceWei, decimals), RefundOf(b, priceWei, decimals))
    ensures priceWei > 0 ==>
      (AtMost(RefundOf(a, priceWei, decimals), RefundOf(b, priceWei, decimals)) <==> a.gasRefundValue <= b.gasRefundValue)
  {
    var p := Pow10(decimals + 18);
    if a.gasRefundValue <= b.gasRefundValue {
      MulLeMono(a.gasRefundValue, b.gasRefundValue, priceWei);
      MulLeMono(a.gasRefundValue * priceWei, b.gasRefundValue * priceWei, p);
    }
    if priceWei > 0 && a.gasRefundValue > b.gasRefundValue {
      MulLeMono(b.gasRefundValue + 1, a.gasRefundValue, priceWei);
      MulLeMono(b.gasRefundValue * priceWei + 1, a.gasRefundValue * priceWei, p);
    }
  }

  // ---------------------------------------------------------------------------
  // The greedy walk over the keys of the ordered locks
  // ---------------------------------------------------------------------------

  /** One iteration of the inner walk loop: a key of a lock, with the lock's token and key price. */
  datatype Candidate = Candidate(lockAddress: Address, token: Address, price: nat, key: Key)

  /** The allowances left, and the renewals selected so far. */
  datatype Selection = Selection(picks: seq<Pick>, allowances: AllowanceMap)

  function PickOf(c: Candidate): Pick
  {
    Pick(c.lockAddress, c.key.tokenId, c.token, c.key.owner, c.price)
  }

  predicate HasLock(locks: seq<Lock>, a: Address)
  {
    exists l :: l in locks && l.lockAddress == a
  }

  /** `locks.find(({ lockAddress }) => lockAddress == address)`: the first lock with that address. */
  function FindLock(locks: seq<Lock>, a: Address): (l: Lock)
    requires HasLock(locks, a)
    ensures l in locks && l.lockAddress == a
    ensures exists i :: 0 <= i < |locks| && locks[i] == l && forall j :: 0 <= j < i ==> locks[j].lockAddress != a
  {
    if locks[0].lockAddress == a then locks[0]
    else
      assert forall l :: l in locks ==> l == locks[0] || l in locks[1..];
      var l := FindLock(locks[1..], a);
      assert forall i :: 0 <= i < |locks| - 1 ==> locks[1..][i] == locks[i + 1];
      l
  }

  /** All keys of a lock, expired or not, in key order. */
  function LockCandidates(lock: Lock): (r: seq<Candidate>)
    ensures |r| == |lock.keys|
  {
    seq(|lock.keys|, j requires 0 <= j < |lock.keys| => Candidate(lock.lockAddress, lock.tokenAddress, lock.keyPrice, lock.keys[j]))
  }

  /** The candidates of the walk: the locks in walk order, each with all of its keys in order. */
  function WalkCandidates(walk: seq<RefundEntry>, locks: seq<Lock>): (r: seq<Candidate>)
    requires forall e :: e in walk ==> HasLock(locks, e.lockAddress)
    ensures forall c :: c in r ==>
      && (exists e :: e in walk && e.lockAddress == c.lockAddress)
      && (exists l :: l in locks && l.lockAddress == c.lockAddress && l.tokenAddress == c.token
                      && l.keyPrice == c.price && c.key in l.keys)
  {
    if walk == [] then []
    else
      var n := |walk| - 1;
      assert forall e :: e in walk[..n] ==> e in walk;
      var prev := WalkCandidates(walk[..n], locks);
      var lock := FindLock(locks, walk[n].lockAddress);
      var last := LockCandidates(lock);
      assert forall c :: c in last ==> c.lockAddress == walk[n].lockAddress && c.key in lock.keys;
      prev + last
  }

  /**
   * One iteration of the inner walk loop: a key is skipped when its owner has
   * no allowance for the token, when the allowance is below the key price, or
   * when the owner's balance is below it; otherwise it is selected and that
   * one allowance is reduced by the key price at once.
   */
  function Consider(s: Selection, c: Candidate, balanceOf: (Address, Address) -> nat): (r: Selection)
    requires c.token in s.allowances
    ensures r.allowances.Keys == s.allowances.Keys
    ensures forall t :: t in s.allowances ==> r.allowances[t].Keys == s.allowances[t].Keys
  {
    var inner := s.allowances[c.token];
    if c.key.owner !in inner then s
    else if inner[c.key.owner] < c.price then s
    else if balanceOf(c.token, c.key.owner) < c.price then s
    else
      var left: map<Address, nat> := inner[c.key.owner := inner[c.key.owner] - c.price];
      Selection(s.picks + [PickOf(c)], s.allowances[c.token := left])
  }

  /**
   * A key is selected exactly when its owner has an allowance entry for the
   * token that covers the key price and a balance that covers it too; then
   * the renewal is appended and that one allowance drops by the key price,
   * and no other allowance changes.
   */
  lemma ConsiderEffect(s: Selection, c: Candidate, balanceOf: (Address, Address) -> nat)
    requires c.token in s.allowances
    ensures var r := Consider(s, c, balanceOf);
      && (forall t, o :: t in s.allowances && o in s.allowances[t] && (t != c.token || o != c.key.owner) ==>
            r.allowances[t][o] == s.allowances[t][o])
      && (r != s <==>
            && c.key.owner in s.allowances[c.token]
            && s.allowances[c.token][c.key.owner] >= c.price
            && balanceOf(c.token, c.key.owner) >= c.price)
      && (r != s ==>
            && r.picks == s.picks + [PickOf(c)]
            && r.allowances[c.token][c.key.owner] == s.allowances[c.token][c.key.owner] - c.price)
  {
  }

  /** The walk over the given candidates, starting from allowances `init`. */
  function Select(cands: seq<Candidate>, init: AllowanceMap, balanceOf: (Address, Address) -> nat): (r: Selection)
    requires forall c :: c in cands ==> c.token in init
    ensures r.allowances.Keys == init.Keys
    ensures forall t :: t in init ==> r.allowances[t].Keys == init[t].Keys
  {
    if cands == [] then Selection([], init)
    else
      var n := |cands| - 1;
      assert forall c :: c in cands[..n] ==> c in cands;
      Consider(Select(cands[..n], init, balanceOf), cands[n], balanceOf)
  }

  /**
   * Every selected renewal comes from one of the candidates, charges a pair
   * that has an allowance entry, and was covered by the owner's balance.
   */
  lemma {:induction false} SelectedPicksChecked(cands: seq<Candidate>, init: AllowanceMap, balanceOf: (Address, Address) -> nat)
    requires forall c :: c in cands ==> c.token in init
    ensures forall p :: p in Select(cands, init, balanceOf).picks ==>
      && p.token in init && p.owner in init[p.token]
      && balanceOf(p.token, p.owner) >= p.price
      && exists c :: c in cands && p == PickOf(c)
  {
    if cands != [] {
      var n := |cands| - 1;
      assert forall c :: c in cands[..n] ==> c in cands;
      SelectedPicksChecked(cands[..n], init, balanceOf);
      var prev := Select(cands[..n], init, balanceOf);
      ConsiderEffect(prev, cands[n], balanceOf);
      var r := Select(cands, init, balanceOf);
      assert forall p :: p in r.picks ==> p in prev.picks || p == PickOf(cands[n]);
    }
  }

  lemma SelectAppend(cands: seq<Candidate>, c: Candidate, init: AllowanceMap, balanceOf: (Address, Address) -> nat)
    requires forall x :: x in cands + [c] ==> x.token in init
    ensures Select(cands + [c], init, balanceOf) == Consider(Select(cands, init, balanceOf), c, balanceOf)
  {
    assert (cands + [c])[..|cands|] == cands;
  }

  lemma WalkAppend(walk: seq<RefundEntry>, locks: seq<Lock>, i: nat)
    requires i < |walk|
    requires forall e :: e in walk ==> HasLock(locks, e.lockAddress)
    ensures forall e :: e in walk[..i + 1] ==> HasLock(locks, e.lockAddress)
    ensures WalkCandidates(walk[..i + 1], locks)
         == WalkCandidates(walk[..i], locks) + LockCandidates(FindLock(locks, walk[i].lockAddress))
  {
    assert forall e :: e in walk[..i + 1] ==> e in walk;
    assert walk[..i + 1][..i] == walk[..i];
  }

  lemma LockCandidatesAppend(done: seq<Candidate>, lock: Lock, j: nat)
    requires j < |lock.keys|
    ensures done + LockCandidates(lock)[..j + 1]
         == (done + LockCandidates(lock)[..j]) + [Candidate(lock.lockAddress, lock.tokenAddress, lock.keyPrice, lock.keys[j])]
  {
    assert LockCandidates(lock)[..j + 1] == LockCandidates(lock)[..j] + [LockCandidates(lock)[j]];
  }

  /** The body of the inner walk loop of main, for one key. */
  method ConsiderKey(picks: seq<Pick>, allowances: AllowanceMap, lock: Lock, key: Key, balanceOf: (Address, Address) -> nat)
    returns (picks': seq<Pick>, allowances': AllowanceMap)
    requires lock.tokenAddress in allowances
    ensures Selection(picks', allowances')
         == Consider(Selection(picks, allowances), Candidate(lock.lockAddress, lock.tokenAddress, lock.keyPrice, key), balanceOf)
  {
    picks', allowances' := picks, allowances;
    var inner := allowances[lock.tokenAddress];
    if key.owner !in inner {
      // no approved allowance recorded for this owner
      return;
    }
    var allowance := inner[key.owner];
    if allowance < lock.keyPrice {
      // insufficient allowance
      return;
    }
    var balance := balanceOf(lock.tokenAddress, key.owner);
    if balance < lock.keyPrice {
      // insufficient balance
      return;
    }
    picks' := picks' + [Pick(lock.lockAddress, key.tokenId, lock.tokenAddress, key.owner, lock.keyPrice)];
    var left: map<Address, nat> := inner[key.owner := allowance - lock.keyPrice];
    allowances' := allowances'[lock.tokenAddress := left];
  }

  /** The walk over the first n keys of one lock, from selection s. */
  function SelectKeys(s: Selection, lock: Lock, n: nat, balanceOf: (Address, Address) -> nat): (r: Selection)
    requires n <= |lock.keys| && (n > 0 ==> lock.tokenAddress in s.allowances)
    ensures r.allowances.Keys == s.allowances.Keys
  {
    if n == 0 then s
    else Consider(SelectKeys(s, lock, n - 1, balanceOf), LockCandidates(lock)[n - 1], balanceOf)
  }

  lemma TokensOfPrefix(done: seq<Candidate>, lock: Lock, n: nat, init: AllowanceMap)
    requires n <= |lock.keys| && (n > 0 ==> lock.tokenAddress in init)
    requires forall c :: c in done ==> c.token in init
    ensures forall c :: c in done + LockCandidates(lock)[..n] ==> c.token in init
  {
    forall c | c in done + LockCandidates(lock)[..n]
      ensures c.token in init
    {
      if c !in done {
        var j :| 0 <= j < n && LockCandidates(lock)[..n][j] == c;
      }
    }
  }

  /** The index-based walk over one lock's keys is the walk over its candidates. */
  lemma {:induction false} SelectKeysIsSelect(done: seq<Candidate>, lock: Lock, n: nat, init: AllowanceMap, balanceOf: (Address, Address) -> nat)
    requires n <= |lock.keys| && (n > 0 ==> lock.tokenAddress in init)
    requires forall c :: c in done ==> c.token in init
    requires forall c :: c in done + LockCandidates(lock)[..n] ==> c.token in init
    ensures Select(done + LockCandidates(lock)[..n], init, balanceOf) == SelectKeys(Select(done, init, balanceOf), lock, n, balanceOf)
  {
    if n == 0 {
      assert done + LockCandidates(lock)[..0] == done;
    } else {
      var prefix := done + LockCandidates(lock)[..n - 1];
      var c := LockCandidates(lock)[n - 1];
      TokensOfPrefix(done, lock, n - 1, init);
      SelectKeysIsSelect(done, lock, n - 1, init, balanceOf);
      LockCandidatesAppend(done, lock, n - 1);
      assert done + LockCandidates(lock)[..n] == prefix + [c];
      SelectAppend(prefix, c, init, balanceOf);
    }
  }

  /** The inner walk loop of main: every key of one lock, in order. */
  method SelectLockKeys(picks: seq<Pick>, allowances: AllowanceMap, lock: Lock, balanceOf: (Address, Address) -> nat)
    returns (picks': seq<Pick>, allowances': AllowanceMap)
    requires |lock.keys| > 0 ==> lock.tokenAddress in allowances
    ensures Selection(picks', allowances') == SelectKeys(Selection(picks, allowances), lock, |lock.keys|, balanceOf)
  {
    picks', allowances' := picks, allowances;
    for j := 0 to |lock.keys|
      invariant Selection(picks', allowances') == SelectKeys(Selection(picks, allowances), lock, j, balanceOf)
    {
      picks', allowances' := ConsiderKey(picks', allowances', lock, lock.keys[j], balanceOf);
    }
  }

  /** One iteration of the outer walk loop: the next lock's keys, walked from the current selection. */
  lemma WalkStep(walk: seq<RefundEntry>, locks: seq<Lock>, i: nat, init: AllowanceMap, balanceOf: (Address, Address) -> nat)
    requires i < |walk|
    requires forall e :: e in walk ==> HasLock(locks, e.lockAddress)
    requires TokensCovered(locks, init)
    ensures forall e :: e in walk[..i] ==> HasLock(locks, e.lockAddress)
    ensures forall e :: e in walk[..i + 1] ==> HasLock(locks, e.lockAddress)
    ensures var lock := FindLock(locks, walk[i].lockAddress);
      var before := Select(WalkCandidates(walk[..i], locks), init, balanceOf);
      && (|lock.keys| > 0 ==> lock.tokenAddress in before.allowances)
      && Select(WalkCandidates(walk[..i + 1], locks), init, balanceOf) == SelectKeys(before, lock, |lock.keys|, balanceOf)
  {
    assert forall e :: e in walk[..i] ==> e in walk;
    WalkAppend(walk, locks, i);
    var lock := FindLock(locks, walk[i].lockAddress);
    var done := WalkCandidates(walk[..i], locks);
    assert LockCandidates(lock)[..|lock.keys|] == LockCandidates(lock);
    if lock.keys != [] {
      TokensOfPrefix(done, lock, |lock.keys|, init);
      SelectKeysIsSelect(done, lock, |lock.keys|, init, balanceOf);
    } else {
      assert done + LockCandidates(lock) == done;
    }
  }

  /**
   * The selection loop of main: walk the ordered locks and their keys,
   * emitting renewals and drawing down the allowance map in place.
   */
  method SelectOpportunities(walk: seq<RefundEntry>, locks: seq<Lock>, allowances: AllowanceMap, balanceOf: (Address, Address) -> nat)
    returns (picks: seq<Pick>, remaining: AllowanceMap)
    requires forall e :: e in walk ==> HasLock(locks, e.lockAddress)
    requires TokensCovered(locks, allowances)
    ensures Selection(picks, remaining) == Select(WalkCandidates(walk, locks), allowances, balanceOf)
  {
    picks, remaining := [], allowances;
    for i := 0 to |walk|
      invariant forall e :: e in walk[..i] ==> HasLock(locks, e.lockAddress)
      invariant Selection(picks, remaining) == Select(WalkCandidates(walk[..i], locks), allowances, balanceOf)
    {
      WalkStep(walk, locks, i, allowances, balanceOf);
      var lock := FindLock(locks, walk[i].lockAddress);
      picks, remaining := SelectLockKeys(picks, remaining, lock, balanceOf);
    }
    assert walk[..|walk|] == walk;
  }

  // ---------------------------------------------------------------------------
  // Allowance conservation
  // ---------------------------------------------------------------------------

  /** The total key price of the selected renewals charged to (t, o). */
  function Spent(picks: seq<Pick>, t: Address, o: Address): nat
  {
    if picks == [] then 0
    else
      var p := picks[|picks| - 1];
      Spent(picks[..|picks| - 1], t, o) + (if p.token == t && p.owner == o then p.price else 0)
  }

  /**
   * For every (token, owner) pair, what is left of the allowance plus the
   * prices of the renewals charged to the pair is the starting allowance.
   */
  lemma {:induction false} AllowanceConservation(cands: seq<Candidate>, init: AllowanceMap, balanceOf: (Address, Address) -> nat, t: Address, o: Address)
    requires forall c :: c in cands ==> c.token in init
    requires t in init && o in init[t]
    ensures var r := Select(cands, init, balanceOf);
      r.allowances[t][o] + Spent(r.picks, t, o) == init[t][o]
  {
    if cands != [] {
      var n := |cands| - 1;
      assert forall c :: c in cands[..n] ==> c in cands;
      AllowanceConservation(cands[..n], init, balanceOf, t, o);
      var prev := Select(cands[..n], init, balanceOf);
      ConsiderEffect(prev, cands[n], balanceOf);
      var r := Select(cands, init, balanceOf);
      if r != prev {
        assert r.picks[..|r.picks| - 1] == prev.picks;
      }
    }
  }

  /** Nothing is charged to a pair that had no allowance entry. */
  lemma {:induction false} NothingSpentWithoutEntry(picks: seq<Pick>, init: AllowanceMap, t: Address, o: Address)
    requires forall p :: p in picks ==> p.token in init && p.owner in init[p.token]
    requires !(t in init && o in init[t])
    ensures Spent(picks, t, o) == 0
  {
    if picks != [] {
      var n := |picks| - 1;
      assert forall p :: p in picks[..n] ==> p in picks;
      NothingSpentWithoutEntry(picks[..n], init, t, o);
      assert picks[n] in picks;
    }
  }

  /**
   * The selected renewals never charge a (token, owner) pair more than its
   * starting allowance, and no allowance goes below zero.
   */
  lemma SpentWithinAllowance(cands: seq<Candidate>, init: AllowanceMap, balanceOf: (Address, Address) -> nat, t: Address, o: Address)
    requires forall c :: c in cands ==> c.token in init
    ensures var r := Select(cands, init, balanceOf);
      Spent(r.picks, t, o) <= (if t in init && o in init[t] then init[t][o] else 0)
  {
    if t in init && o in init[t] {
      AllowanceConservation(cands, init, balanceOf, t, o);
    } else {
      SelectedPicksChecked(cands, init, balanceOf);
      NothingSpentWithoutEntry(Select(cands, init, balanceOf).picks, init, t, o);
    }
  }

  /**
   * Renewals come out in walk order: the renewals selected from the first k
   * candidates are a prefix of those selected from all of them.
   */
  lemma {:induction false} EarlierCandidatesPickedFirst(cands: seq<Candidate>, k: nat, init: AllowanceMap, balanceOf: (Address, Address) -> nat)
    requires k <= |cands|
    requires forall c :: c in cands ==> c.token in init
    ensures forall c :: c in cands[..k] ==> c.token in init
    ensures Select(cands[..k], init, balanceOf).picks <= Select(cands, init, balanceOf).picks
  {
    assert forall c :: c in cands[..k] ==> c in cands;
    if k < |cands| {
      var n := |cands| - 1;
      assert forall c :: c in cands[..n] ==> c in cands;
      assert cands[..n][..k] == cands[..k];
      EarlierCandidatesPickedFirst(cands[..n], k, init, balanceOf);
    } else {
      assert cands[..k] == cands;
    }
  }

  // ---------------------------------------------------------------------------
  // The stage as a whole
  // ---------------------------------------------------------------------------

  lemma EntriesHaveLocks(locks: seq<Lock>, prices: map<Address, nat>, decimalsOf: Address -> nat, walk: seq<RefundEntry>)
    requires RefundEntries(locks, prices, decimalsOf).Ok?
    requires forall e :: e in walk ==> e in RefundEntries(locks, prices, decimalsOf).value
    ensures forall e :: e in walk ==> HasLock(locks, e.lockAddress)
  {
    var entries := RefundEntries(locks, prices, decimalsOf).value;
    forall e | e in walk
      ensures HasLock(locks, e.lockAddress)
    {
      var i :| 0 <= i < |entries| && entries[i] == e;
      assert locks[i] in locks;
    }
  }

  /** The locks walked, in order: the profitable ones, highest refund value first. */
  function WalkOrder(entries: seq<RefundEntry>): (walk: seq<RefundEntry>)
    ensures Descending(walk)
    ensures forall e :: e in walk <==> e in entries && Profitable(e)
    ensures forall e :: multiset(walk)[e] == if Profitable(e) then multiset(entries)[e] else 0
  {
    var sorted := SortByRefund(entries);
    assert forall e :: e in sorted <==> e in multiset(sorted);
    AboveThresholdCounts(sorted);
    AboveThreshold(sorted)
  }

  /**
   * The stage: no prices at all ends it with nothing to do; a lock whose
   * token has no price aborts it; otherwise the ordered, profitable locks are
   * walked.
   */
  function FindProfitable(locks: seq<Lock>, allowances: AllowanceMap, prices: map<Address, nat>,
                          decimalsOf: Address -> nat, balanceOf: (Address, Address) -> nat): (r: Outcome)
    requires TokensCovered(locks, allowances)
    ensures r.NothingToDo? <==> |prices| == 0
    ensures r.Crashed? <==> |prices| > 0 && exists l :: l in locks && l.tokenAddress !in prices
    ensures r.Crashed? ==> exists l :: l in locks && l.tokenAddress !in prices && r.reason == MissingPrice(l.tokenAddress)
  {
    if |prices| == 0 then NothingToDo
    else match RefundEntries(locks, prices, decimalsOf)
      case Err(c) => Crashed(c)
      case Ok(entries) =>
        var walk := WalkOrder(entries);
        EntriesHaveLocks(locks, prices, decimalsOf, walk);
        Selected(Select(WalkCandidates(walk, locks), allowances, balanceOf).picks)
  }

  /**
   * The locks walked as written: the sort leaves the entries in lock order,
   * so the profitable ones are walked in that order.
   */
  function WalkAsWritten(entries: seq<RefundEntry>): (walk: seq<RefundEntry>)
    ensures forall e :: e in walk <==> e in entries && Profitable(e)
  {
    AboveThreshold(SortAsWritten(entries))
  }

  /**
   * Both walks visit the same locks, each as often: the code as written
   * differs from the intended stage only in the order of the walk.
   */
  lemma WalksSameLocks(entries: seq<RefundEntry>)
    ensures multiset(WalkAsWritten(entries)) == multiset(WalkOrder(entries))
  {
    AboveThresholdCounts(entries);
    var a, b := multiset(WalkAsWritten(entries)), multiset(WalkOrder(entries));
    assert forall e :: a[e] == b[e];
  }

  /**
   * The stage as written: the same as the intended one, except that the
   * profitable locks are walked in lock order rather than by refund value.
   */
  function FindProfitableAsWritten(locks: seq<Lock>, allowances: AllowanceMap, prices: map<Address, nat>,
                                   decimalsOf: Address -> nat, balanceOf: (Address, Address) -> nat): (r: Outcome)
    requires TokensCovered(locks, allowances)
    ensures r.NothingToDo? <==> |prices| == 0
    ensures r.Crashed? <==> |prices| > 0 && exists l :: l in locks && l.tokenAddress !in prices
    ensures r.Crashed? ==> exists l :: l in locks && l.tokenAddress !in prices && r.reason == MissingPrice(l.tokenAddress)
  {
    if |prices| == 0 then NothingToDo
    else match RefundEntries(locks, prices, decimalsOf)
      case Err(c) => Crashed(c)
      case Ok(entries) =>
        var walk := WalkAsWritten(entries);
        EntriesHaveLocks(locks, prices, decimalsOf, walk);
        Selected(Select(WalkCandidates(walk, locks), allowances, balanceOf).picks)
  }

  lemma PickFromWalk(walk: seq<RefundEntry>, locks: seq<Lock>, init: AllowanceMap, balanceOf: (Address, Address) -> nat, p: Pick)
    requires forall e :: e in walk ==> HasLock(locks, e.lockAddress)
    requires forall c :: c in WalkCandidates(walk, locks) ==> c.token in init
    requires p in Select(WalkCandidates(walk, locks), init, balanceOf).picks
    ensures exists e :: e in walk && e.lockAddress == p.lock
  {
    SelectedPicksChecked(WalkCandidates(walk, locks), init, balanceOf);
    var c :| c in WalkCandidates(walk, locks) && p == PickOf(c);
  }

  lemma ProfitableEntryHasLock(locks: seq<Lock>, prices: map<Address, nat>, decimalsOf: Address -> nat, e: RefundEntry)
    requires RefundEntries(locks, prices, decimalsOf).Ok?
    requires e in RefundEntries(locks, prices, decimalsOf).value && Profitable(e)
    ensures exists i :: (0 <= i < |locks| && locks[i].lockAddress == e.lockAddress && locks[i].tokenAddress in prices
      && Profitable(RefundOf(locks[i], prices[locks[i].tokenAddress], decimalsOf(locks[i].tokenAddress))))
  {
    var entries := RefundEntries(locks, prices, decimalsOf).value;
    var i :| 0 <= i < |entries| && entries[i] == e;
    assert locks[i] in locks;
    var token := locks[i].tokenAddress;
    assert e == RefundOf(locks[i], prices[token], decimalsOf(token));
  }

  /**
   * main of the stage: value the locks, order and filter them, then run the
   * selection loop.
   */
  method Run(locks: seq<Lock>, allowances: AllowanceMap, prices: map<Address, nat>,
             decimalsOf: Address -> nat, balanceOf: (Address, Address) -> nat)
    returns (r: Outcome)
    requires TokensCovered(locks, allowances)
    ensures r == FindProfitable(locks, allowances, prices, decimalsOf, balanceOf)
  {
    if |prices| == 0 {
      // the price service knows none of the tokens
      return NothingToDo;
    }
    var refunds := RefundEntries(locks, prices, decimalsOf);
    if refunds.Err? {
      return Crashed(refunds.crash);
    }
    var walk := WalkOrder(refunds.value);
    EntriesHaveLocks(locks, prices, decimalsOf, walk);
    var picks, remaining := SelectOpportunities(walk, locks, allowances, balanceOf);
    r := Selected(picks);
  }

  /**
   * Every selected renewal belongs to a lock whose refund value is strictly
   * above the threshold, charges a pair with an allowance entry, and was
   * covered by the owner's balance when selected.
   */
  lemma SelectedAreProfitable(locks: seq<Lock>, allowances: AllowanceMap, prices: map<Address, nat>,
                              decimalsOf: Address -> nat, balanceOf: (Address, Address) -> nat, p: Pick)
    requires TokensCovered(locks, allowances)
    ensures var r := FindProfitable(locks, allowances, prices, decimalsOf, balanceOf);
      r.Selected? && p in r.picks ==>
        && (exists i :: (0 <= i < |locks| && locks[i].lockAddress == p.lock && locks[i].tokenAddress in prices
              && Profitable(RefundOf(locks[i], prices[locks[i].tokenAddress], decimalsOf(locks[i].tokenAddress)))))
        && p.token in allowances && p.owner in allowances[p.token]
        && balanceOf(p.token, p.owner) >= p.price
  {
    var r := FindProfitable(locks, allowances, prices, decimalsOf, balanceOf);
    if r.Selected? && p in r.picks {
      var entries := RefundEntries(locks, prices, decimalsOf).value;
      var walk := WalkOrder(entries);
      EntriesHaveLocks(locks, prices, decimalsOf, walk);
      var sel := Select(WalkCandidates(walk, locks), allowances, balanceOf);
      assert FindProfitable(locks, allowances, prices, decimalsOf, balanceOf) == Selected(sel.picks);
      SelectedPicksChecked(WalkCandidates(walk, locks), allowances, balanceOf);
      PickFromWalk(walk, locks, allowances, balanceOf, p);
      var e :| e in walk && e.lockAddress == p.lock;
      ProfitableEntryHasLock(locks, prices, decimalsOf, e);
    }
  }

  /** The same holds for the stage as written, whose walk has the same profitable locks. */
  lemma SelectedAreProfitableAsWritten(locks: seq<Lock>, allowances: AllowanceMap, prices: map<Address, nat>,
                                       decimalsOf: Address -> nat, balanceOf: (Address, Address) -> nat, p: Pick)
    requires TokensCovered(locks, allowances)
    ensures var r := FindProfitableAsWritten(locks, allowances, prices, decimalsOf, balanceOf);
      r.Selected? && p in r.picks ==>
        && (exists i :: (0 <= i < |locks| && locks[i].lockAddress == p.lock && locks[i].tokenAddress in prices
              && Profitable(RefundOf(locks[i], prices[locks[i].tokenAddress], decimalsOf(locks[i].tokenAddress)))))
        && p.token in allowances && p.owner in allowances[p.token]
        && balanceOf(p.token, p.owner) >= p.price
  {
    var r := FindProfitableAsWritten(locks, allowances, prices, decimalsOf, balanceOf);
    if r.Selected? && p in r.picks {
      var entries := RefundEntries(locks, prices, decimalsOf).value;
      var walk := WalkAsWritten(entries);
      EntriesHaveLocks(locks, prices, decimalsOf, walk);
      var sel := Select(WalkCandidates(walk, locks), allowances, balanceOf);
      assert FindProfitableAsWritten(locks, allowances, prices, decimalsOf, balanceOf) == Selected(sel.picks);
      SelectedPicksChecked(WalkCandidates(walk, locks), allowances, balanceOf);
      PickFromWalk(walk, locks, allowances, balanceOf, p);
      var e :| e in walk && e.lockAddress == p.lock;
      ProfitableEntryHasLock(locks, prices, decimalsOf, e);
    }
  }

  /** For every (token, owner) pair, the renewals of a run never cost more than the starting allowance. */
  lemma FindProfitableConservesAllowance(locks: seq<Lock>, allowances: AllowanceMap, prices: map<Address, nat>,
                                         decimalsOf: Address -> nat, balanceOf: (Address, Address) -> nat, t: Address, o: Address)
    requires TokensCovered(locks, allowances)
    ensures var r := FindProfitable(locks, allowances, prices, decimalsOf, balanceOf);
      r.Selected? ==> Spent(r.picks, t, o) <= (if t in allowances && o in allowances[t] then allowances[t][o] else 0)
  {
    var r := FindProfitable(locks, allowances, prices, decimalsOf, balanceOf);
    if r.Selected? {
      var entries := RefundEntries(locks, prices, decimalsOf).value;
      var walk := WalkOrder(entries);
      EntriesHaveLocks(locks, prices, decimalsOf, walk);
      SpentWithinAllowance(WalkCandidates(walk, locks), allowances, balanceOf, t, o);
    }
  }

  /** The same holds for the stage as written. */
  lemma FindProfitableAsWrittenConservesAllowance(locks: seq<Lock>, allowances: AllowanceMap, prices: map<Address, nat>,
                                                  decimalsOf: Address -> nat, balanceOf: (Address, Address) -> nat, t: Address, o: Address)
    requires TokensCovered(locks, allowances)
    ensures var r := FindProfitableAsWritten(locks, allowances, prices, decimalsOf, balanceOf);
      r.Selected? ==> Spent(r.picks, t, o) <= (if t in allowances && o in allowances[t] then allowances[t][o] else 0)
  {
    var r := FindProfitableAsWritten(locks, allowances, prices, decimalsOf, balanceOf);
    if r.Selected? {
      var entries := RefundEntries(locks, prices, decimalsOf).value;
      var walk := WalkAsWritten(entries);
      EntriesHaveLocks(locks, prices, decimalsOf, walk);
      SpentWithinAllowance(WalkCandidates(walk, locks), allowances, balanceOf, t, o);
    }
  }

  // ---------------------------------------------------------------------------
  // Worked cases
  // ---------------------------------------------------------------------------

  const Token: Address := 2
  const Owner: Address := 3
  const OneEther: nat := 1_000_000_000_000_000_000

  /** Lock A: refund 10 tokens, key price 5, one expired key of the owner. */
  function LockA(): Lock
  {
    Lock(1, 10, 10, Token, 1, 1, 5, [Key(1, Owner, true)])
  }

  /** Lock B: refund 2 tokens, key price 5, one expired key of the same owner. */
  function LockB(): Lock
  {
    Lock(4, 10, 2, Token, 1, 1, 5, [Key(2, Owner, true)])
  }

  /** Lock C: like A, but its key has not expired. */
  function LockC(): Lock
  {
    Lock(5, 10, 10, Token, 1, 1, 5, [Key(7, Owner, false)])
  }

  function NoDecimals(t: Address): nat
  {
    0
  }

  function Holds5(t: Address, o: Address): nat
  {
    5
  }

  const EntryA := RefundEntry(1, 10 * OneEther, 18)
  const EntryB := RefundEntry(4, 2 * OneEther, 18)
  const EntryC := RefundEntry(5, 10 * OneEther, 18)
  const CandA := Candidate(1, Token, 5, Key(1, Owner, true))
  const CandB := Candidate(4, Token, 5, Key(2, Owner, true))
  const CandC := Candidate(5, Token, 5, Key(7, Owner, false))

  lemma Pow10Of18()
    ensures Pow10(18) == OneEther
  {
    assert Pow10(3) == 1000;
    assert Pow10(6) == 1000 * Pow10(3);
    assert Pow10(9) == 1000 * Pow10(6);
    assert Pow10(12) == 1000 * Pow10(9);
    assert Pow10(15) == 1000 * Pow10(12);
    assert Pow10(18) == 1000 * Pow10(15);
  }

  /** With equal exponents, refund values compare as their amounts do. */
  lemma SameExponentAtMost(a: RefundEntry, b: RefundEntry)
    requires a.exponent == b.exponent
    ensures AtMost(a, b) <==> a.amount <= b.amount
  {
    var p := Pow10(a.exponent);
    if a.amount <= b.amount {
      MulLeMono(a.amount, b.amount, p);
    } else {
      MulLeMono(b.amount + 1, a.amount, p);
      assert (b.amount + 1) * p == b.amount * p + p;
    }
  }

  /** A refund of at least one whole ether is above the 0.02 ETH threshold. */
  lemma AtLeastOneEtherProfitable(e: RefundEntry)
    requires e.exponent == 18 && e.amount >= OneEther
    ensures Profitable(e)
  {
    Pow10Of18();
  }

  lemma OneEntryWalk(e: RefundEntry)
    requires Profitable(e)
    ensures WalkOrder([e]) == [e]
  {
    assert [e][1..] == [];
    assert SortByRefund([e]) == [e];
    assert AboveThreshold([e]) == [e];
  }

  lemma LockAWalk(locks: seq<Lock>, prices: map<Address, nat>)
    requires locks == [LockA()] && prices == map[Token := OneEther]
    ensures RefundEntries(locks, prices, NoDecimals) == Ok([EntryA])
    ensures WalkOrder([EntryA]) == [EntryA]
    ensures WalkCandidates([EntryA], locks) == [CandA]
  {
    assert locks[1..] == [];
    assert RefundEntries(locks[1..], prices, NoDecimals) == Ok([]);
    assert RefundOf(LockA(), OneEther, 0) == EntryA;
    assert [EntryA] + [] == [EntryA];
    AtLeastOneEtherProfitable(EntryA);
    OneEntryWalk(EntryA);
  }

  /**
   * A single priced lock gives one refund entry; both walks hold it when it
   * is profitable and are empty otherwise.
   */
  lemma SingleLockWalk(l: Lock, prices: map<Address, nat>, decimalsOf: Address -> nat)
    requires l.tokenAddress in prices
    ensures RefundEntries([l], prices, decimalsOf).Ok?
    ensures var e := RefundOf(l, prices[l.tokenAddress], decimalsOf(l.tokenAddress));
      && RefundEntries([l], prices, decimalsOf).value == [e]
      && WalkOrder([e]) == (if Profitable(e) then [e] else [])
      && WalkAsWritten([e]) == (if Profitable(e) then [e] else [])
      && HasLock([l], e.lockAddress)
  {
    var e := RefundOf(l, prices[l.tokenAddress], decimalsOf(l.tokenAddress));
    assert [e][1..] == [];
    assert SortByRefund([e]) == [e];
    assert AboveThreshold([e]) == (if Profitable(e) then [e] else []);
    assert WalkOrder([e]) == AboveThreshold(SortByRefund([e]));
    assert l in [l];
  }

  lemma SingleLockCandidates(l: Lock, e: RefundEntry)
    requires e.lockAddress == l.lockAddress
    ensures HasLock([l], e.lockAddress)
    ensures WalkCandidates([e], [l]) == LockCandidates(l)
  {
    assert l in [l];
    assert [e][..0] == [];
  }

  /**
   * One profitable lock with one key, whose owner has an allowance entry and
   * a balance that both cover the key price: exactly that key is renewed,
   * as written and as intended.
   */
  lemma OneLockOneRenewal(l: Lock, k: Key, allowances: AllowanceMap, prices: map<Address, nat>,
                          decimalsOf: Address -> nat, balanceOf: (Address, Address) -> nat)
    requires l.keys == [k] && l.tokenAddress in prices
    requires Profitable(RefundOf(l, prices[l.tokenAddress], decimalsOf(l.tokenAddress)))
    requires l.tokenAddress in allowances && k.owner in allowances[l.tokenAddress]
    requires allowances[l.tokenAddress][k.owner] >= l.keyPrice && balanceOf(l.tokenAddress, k.owner) >= l.keyPrice
    ensures TokensCovered([l], allowances)
    ensures FindProfitable([l], allowances, prices, decimalsOf, balanceOf)
         == Selected([Pick(l.lockAddress, k.tokenId, l.tokenAddress, k.owner, l.keyPrice)])
    ensures FindProfitableAsWritten([l], allowances, prices, decimalsOf, balanceOf)
         == Selected([Pick(l.lockAddress, k.tokenId, l.tokenAddress, k.owner, l.keyPrice)])
  {
    var e := RefundOf(l, prices[l.tokenAddress], decimalsOf(l.tokenAddress));
    SingleLockWalk(l, prices, decimalsOf);
    SingleLockCandidates(l, e);
    var c := Candidate(l.lockAddress, l.tokenAddress, l.keyPrice, k);
    assert LockCandidates(l) == [c];
    assert [c][..0] == [];
    assert Select([c], allowances, balanceOf).picks == [PickOf(c)];
  }

  /**
   * One lock with one key whose owner has no allowance entry, an allowance
   * below the key price, or a balance below it: nothing is renewed, as
   * written and as intended, whatever the lock's refund.
   */
  lemma UncoveredKeyNotRenewed(l: Lock, k: Key, allowances: AllowanceMap, prices: map<Address, nat>,
                               decimalsOf: Address -> nat, balanceOf: (Address, Address) -> nat)
    requires l.keys == [k] && l.tokenAddress in prices && l.tokenAddress in allowances
    requires || k.owner !in allowances[l.tokenAddress]
             || allowances[l.tokenAddress][k.owner] < l.keyPrice
             || balanceOf(l.tokenAddress, k.owner) < l.keyPrice
    ensures TokensCovered([l], allowances)
    ensures FindProfitable([l], allowances, prices, decimalsOf, balanceOf) == Selected([])
    ensures FindProfitableAsWritten([l], allowances, prices, decimalsOf, balanceOf) == Selected([])
  {
    var e := RefundOf(l, prices[l.tokenAddress], decimalsOf(l.tokenAddress));
    SingleLockWalk(l, prices, decimalsOf);
    if Profitable(e) {
      SingleLockCandidates(l, e);
      var c := Candidate(l.lockAddress, l.tokenAddress, l.keyPrice, k);
      assert LockCandidates(l) == [c];
      assert [c][..0] == [];
      assert Select([c], allowances, balanceOf).picks == [];
    } else {
      assert WalkCandidates([], [l]) == [];
    }
  }

  /** An empty price response ends the stage with nothing to do. */
  lemma NoPricesNothingToDo(locks: seq<Lock>, allowances: AllowanceMap, decimalsOf: Address -> nat, balanceOf: (Address, Address) -> nat)
    requires TokensCovered(locks, allowances)
    ensures FindProfitable(locks, allowances, map[], decimalsOf, balanceOf) == NothingToDo
  {
  }

  lemma TwoLocksRefunds(locks: seq<Lock>, prices: map<Address, nat>)
    requires locks == [LockB(), LockA()] && prices == map[Token := OneEther]
    ensures RefundEntries(locks, prices, NoDecimals) == Ok([EntryB, EntryA])
  {
    LockAWalk(locks[1..], prices);
    assert RefundOf(LockB(), OneEther, 0) == EntryB;
    assert [EntryB] + [EntryA] == [EntryB, EntryA];
  }

  lemma TwoLocksSort()
    ensures SortByRefund([EntryB, EntryA]) == [EntryA, EntryB]
  {
    SameExponentAtMost(EntryA, EntryB);
    assert [EntryB, EntryA][1..] == [EntryA];
    assert [EntryA][1..] == [];
    assert SortByRefund([EntryA]) == [EntryA];
    assert InsertDesc(EntryB, []) == [EntryB];
    assert InsertDesc(EntryB, [EntryA]) == [EntryA, EntryB];
  }

  lemma TwoLocksThreshold()
    ensures AboveThreshold([EntryA, EntryB]) == [EntryA, EntryB]
  {
    AtLeastOneEtherProfitable(EntryA);
    AtLeastOneEtherProfitable(EntryB);
    assert [EntryA, EntryB][1..] == [EntryB];
    assert [EntryB][1..] == [];
    assert AboveThreshold([EntryB]) == [EntryB];
  }

  lemma TwoLocksCandidates(locks: seq<Lock>)
    requires locks == [LockB(), LockA()]
    ensures forall e :: e in [EntryA, EntryB] ==> HasLock(locks, e.lockAddress)
    ensures WalkCandidates([EntryA, EntryB], locks) == [CandA, CandB]
  {
    assert locks[1..] == [LockA()];
    assert FindLock(locks, 1) == LockA();
    assert FindLock(locks, 4) == LockB();
    assert [EntryA, EntryB][..1] == [EntryA];
    assert [EntryA][..0] == [];
    assert WalkCandidates([EntryA], locks) == [CandA];
  }

  lemma TwoLocksWalk(locks: seq<Lock>, prices: map<Address, nat>)
    requires locks == [LockB(), LockA()] && prices == map[Token := OneEther]
    ensures RefundEntries(locks, prices, NoDecimals).Ok?
    ensures var walk := WalkOrder(RefundEntries(locks, prices, NoDecimals).value);
      (forall e :: e in walk ==> HasLock(locks, e.lockAddress)) && WalkCandidates(walk, locks) == [CandA, CandB]
  {
    TwoLocksRefunds(locks, prices);
    TwoLocksSort();
    TwoLocksThreshold();
    TwoLocksCandidates(locks);
  }

  lemma TwoLocksSelect(allowances: AllowanceMap)
    requires allowances == map[Token := map[Owner := 5]]
    ensures Select([CandA, CandB], allowances, Holds5).picks == [PickOf(CandA)]
  {
    assert [CandA, CandB][..1] == [CandA];
    assert [CandA][..0] == [];
    assert Select([], allowances, Holds5) == Selection([], allowances);
    var first := Select([CandA], allowances, Holds5);
    assert first.picks == [PickOf(CandA)] && first.allowances[Token][Owner] == 0;
  }

  lemma InOrderRefunds(locks: seq<Lock>, prices: map<Address, nat>)
    requires locks == [LockA(), LockB()] && prices == map[Token := OneEther]
    ensures RefundEntries(locks, prices, NoDecimals) == Ok([EntryA, EntryB])
  {
    assert locks[1..] == [LockB()];
    assert locks[1..][1..] == [];
    assert RefundOf(LockA(), OneEther, 0) == EntryA;
    assert RefundOf(LockB(), OneEther, 0) == EntryB;
    assert RefundEntries(locks[1..][1..], prices, NoDecimals) == Ok([]);
    assert [EntryB] + [] == [EntryB];
    assert RefundEntries(locks[1..], prices, NoDecimals) == Ok([EntryB]);
    assert [EntryA] + [EntryB] == [EntryA, EntryB];
  }

  lemma InOrderSort()
    ensures SortByRefund([EntryA, EntryB]) == [EntryA, EntryB]
  {
    SameExponentAtMost(EntryB, EntryA);
    assert [EntryA, EntryB][1..] == [EntryB];
    assert [EntryB][1..] == [];
    assert SortByRefund([EntryB]) == [EntryB];
  }

  lemma InOrderCandidates(locks: seq<Lock>)
    requires locks == [LockA(), LockB()]
    ensures forall e :: e in [EntryA, EntryB] ==> HasLock(locks, e.lockAddress)
    ensures WalkCandidates([EntryA, EntryB], locks) == [CandA, CandB]
  {
    assert locks[1..] == [LockB()];
    assert FindLock(locks, 1) == LockA();
    assert FindLock(locks, 4) == LockB();
    assert [EntryA, EntryB][..1] == [EntryA];
    assert [EntryA][..0] == [];
    assert WalkCandidates([EntryA], locks) == [CandA];
  }

  lemma InOrderWalk(locks: seq<Lock>, prices: map<Address, nat>)
    requires locks == [LockA(), LockB()] && prices == map[Token := OneEther]
    ensures RefundEntries(locks, prices, NoDecimals).Ok?
    ensures var walk := WalkOrder(RefundEntries(locks, prices, NoDecimals).value);
      (forall e :: e in walk ==> HasLock(locks, e.lockAddress)) && WalkCandidates(walk, locks) == [CandA, CandB]
  {
    InOrderRefunds(locks, prices);
    InOrderSort();
    TwoLocksThreshold();
    InOrderCandidates(locks);
  }

  /**
   * Locks A (refund 10) and B (refund 2), both at key price 5, one owner with
   * allowance 5, in either input order: A is walked first and takes the whole
   * allowance, so only A's key is renewed.
   */
  lemma HigherRefundWalkedFirst(locks: seq<Lock>, allowances: AllowanceMap, prices: map<Address, nat>)
    requires locks == [LockB(), LockA()] || locks == [LockA(), LockB()]
    requires allowances == map[Token := map[Owner := 5]] && prices == map[Token := OneEther]
    ensures TokensCovered(locks, allowances)
    ensures FindProfitable(locks, allowances, prices, NoDecimals, Holds5) == Selected([Pick(1, 1, Token, Owner, 5)])
  {
    if locks == [LockB(), LockA()] {
      TwoLocksWalk(locks, prices);
    } else {
      InOrderWalk(locks, prices);
    }
    TwoLocksSelect(allowances);
  }

  lemma LowerFirstThreshold()
    ensures AboveThreshold([EntryB, EntryA]) == [EntryB, EntryA]
  {
    AtLeastOneEtherProfitable(EntryA);
    AtLeastOneEtherProfitable(EntryB);
    assert [EntryB, EntryA][1..] == [EntryA];
    assert [EntryA][1..] == [];
    assert AboveThreshold([EntryA]) == [EntryA];
  }

  lemma LowerFirstCandidates(locks: seq<Lock>)
    requires locks == [LockB(), LockA()]
    ensures forall e :: e in [EntryB, EntryA] ==> HasLock(locks, e.lockAddress)
    ensures WalkCandidates([EntryB, EntryA], locks) == [CandB, CandA]
  {
    assert locks[1..] == [LockA()];
    assert FindLock(locks, 1) == LockA();
    assert FindLock(locks, 4) == LockB();
    assert [EntryB, EntryA][..1] == [EntryB];
    assert [EntryB][..0] == [];
    assert WalkCandidates([EntryB], locks) == [CandB];
  }

  lemma LowerFirstSelect(allowances: AllowanceMap)
    requires allowances == map[Token := map[Owner := 5]]
    ensures Select([CandB, CandA], allowances, Holds5).picks == [PickOf(CandB)]
  {
    assert [CandB, CandA][..1] == [CandB];
    assert [CandB][..0] == [];
    assert Select([], allowances, Holds5) == Selection([], allowances);
    var first := Select([CandB], allowances, Holds5);
    assert first.picks == [PickOf(CandB)] && first.allowances[Token][Owner] == 0;
  }

  /**
   * Locks B (refund 2) and A (refund 10) in that order, key price 5, one
   * owner with allowance 5 and balance 5: as written the walk keeps lock
   * order, so B takes the whole allowance and only B's key is renewed; the
   * intended stage renews A's key instead.
   */
  lemma AsWrittenLowerRefundFirst(locks: seq<Lock>, allowances: AllowanceMap, prices: map<Address, nat>)
    requires locks == [LockB(), LockA()]
    requires allowances == map[Token := map[Owner := 5]] && prices == map[Token := OneEther]
    ensures TokensCovered(locks, allowances)
    ensures FindProfitableAsWritten(locks, allowances, prices, NoDecimals, Holds5) == Selected([Pick(4, 2, Token, Owner, 5)])
    ensures FindProfitable(locks, allowances, prices, NoDecimals, Holds5) == Selected([Pick(1, 1, Token, Owner, 5)])
  {
    TwoLocksRefunds(locks, prices);
    LowerFirstThreshold();
    assert WalkAsWritten([EntryB, EntryA]) == [EntryB, EntryA];
    LowerFirstCandidates(locks);
    LowerFirstSelect(allowances);
    HigherRefundWalkedFirst(locks, allowances, prices);
  }

  lemma SharedOwnerRefunds(locks: seq<Lock>, prices: map<Address, nat>)
    requires locks == [LockA(), LockC()] && prices == map[Token := OneEther]
    ensures RefundEntries(locks, prices, NoDecimals) == Ok([EntryA, EntryC])
  {
    assert locks[1..] == [LockC()];
    assert locks[1..][1..] == [];
    assert RefundOf(LockA(), OneEther, 0) == EntryA;
    assert RefundOf(LockC(), OneEther, 0) == EntryC;
    assert RefundEntries(locks[1..][1..], prices, NoDecimals) == Ok([]);
    assert [EntryC] + [] == [EntryC];
    assert RefundEntries(locks[1..], prices, NoDecimals) == Ok([EntryC]);
    assert [EntryA] + [EntryC] == [EntryA, EntryC];
  }

  lemma SharedOwnerSort()
    ensures SortByRefund([EntryA, EntryC]) == [EntryA, EntryC]
  {
    SameExponentAtMost(EntryC, EntryA);
    assert [EntryA, EntryC][1..] == [EntryC];
    assert [EntryC][1..] == [];
    assert SortByRefund([EntryC]) == [EntryC];
  }

  lemma SharedOwnerThreshold()
    ensures AboveThreshold([EntryA, EntryC]) == [EntryA, EntryC]
  {
    AtLeastOneEtherProfitable(EntryA);
    AtLeastOneEtherProfitable(EntryC);
    assert [EntryA, EntryC][1..] == [EntryC];
    assert [EntryC][1..] == [];
    assert AboveThreshold([EntryC]) == [EntryC];
  }

  lemma SharedOwnerCandidates(locks: seq<Lock>)
    requires locks == [LockA(), LockC()]
    ensures forall e :: e in [EntryA, EntryC] ==> HasLock(locks, e.lockAddress)
    ensures WalkCandidates([EntryA, EntryC], locks) == [CandA, CandC]
  {
    assert locks[1..] == [LockC()];
    assert FindLock(locks, 1) == LockA();
    assert FindLock(locks, 5) == LockC();
    assert [EntryA, EntryC][..1] == [EntryA];
    assert [EntryA][..0] == [];
    assert WalkCandidates([EntryA], locks) == [CandA];
  }

  lemma SharedOwnerWalk(locks: seq<Lock>, prices: map<Address, nat>)
    requires locks == [LockA(), LockC()] && prices == map[Token := OneEther]
    ensures RefundEntries(locks, prices, NoDecimals).Ok?
    ensures var walk := WalkOrder(RefundEntries(locks, prices, NoDecimals).value);
      (forall e :: e in walk ==> HasLock(locks, e.lockAddress)) && WalkCandidates(walk, locks) == [CandA, CandC]
  {
    SharedOwnerRefunds(locks, prices);
    SharedOwnerSort();
    SharedOwnerThreshold();
    SharedOwnerCandidates(locks);
  }

  lemma SharedOwnerSelect(allowances: AllowanceMap)
    requires allowances == map[Token := map[Owner := 10]]
    ensures Select([CandA, CandC], allowances, Holds5).picks == [PickOf(CandA), PickOf(CandC)]
  {
    assert [CandA, CandC][..1] == [CandA];
    assert [CandA][..0] == [];
    assert Select([], allowances, Holds5) == Selection([], allowances);
    var first := Select([CandA], allowances, Holds5);
    assert first.picks == [PickOf(CandA)] && first.allowances[Token][Owner] == 5;
  }

  /**
   * Locks A and C at key price 5, an owner with allowance 10 but balance 5,
   * C's key not expired: both keys are renewed, since the walk checks the
   * balance without drawing it down and renews unexpired keys too.
   */
  lemma BalanceNotDrawnDown(locks: seq<Lock>, allowances: AllowanceMap, prices: map<Address, nat>)
    requires locks == [LockA(), LockC()]
    requires allowances == map[Token := map[Owner := 10]] && prices == map[Token := OneEther]
    ensures TokensCovered(locks, allowances)
    ensures FindProfitable(locks, allowances, prices, NoDecimals, Holds5)
         == Selected([Pick(1, 1, Token, Owner, 5), Pick(5, 7, Token, Owner, 5)])
  {
    SharedOwnerWalk(locks, prices);
    SharedOwnerSelect(allowances);
  }
}

=== FILE: find_subscribers.dfy ===
/**
 * Stage 2, subscriber resolution: walk the keys of every lock found in
 * stage 1 and record, per token and owner, the first non-zero allowance that
 * an owner of an expired key has granted.
 *
 * The token contracts' answers to `allowance(owner, spender)` are an input
 * function; the model also returns the list of allowance calls made, so that
 * which keys cause a call can be stated.
 */
module FindSubscribers {
  import opened Common

  /** One iteration of the inner loop: a key, with its lock's address and token. */
  datatype Visit = Visit(lockAddress: Address, token: Address, key: Key)

  /** A call `token.allowance(owner, spender)`. */
  datatype AllowanceQuery = AllowanceQuery(token: Address, owner: Address, spender: Address)

  /** The token contracts' answers to allowance calls. */
  type Approvals = AllowanceQuery -> nat

  /** The allowance map built so far, and the allowance calls made so far. */
  datatype Scan = Scan(allowances: AllowanceMap, queries: seq<AllowanceQuery>)

  /** The allowance call made for a visit: the key's owner, spent by the visit's own lock. */
  function QueryOf(v: Visit): AllowanceQuery
  {
    AllowanceQuery(v.token, v.key.owner, v.lockAddress)
  }

  /** The visits of one lock, in key order. */
  function LockVisits(lock: Lock): (r: seq<Visit>)
    ensures |r| == |lock.keys|
  {
    seq(|lock.keys|, j requires 0 <= j < |lock.keys| => Visit(lock.lockAddress, lock.tokenAddress, lock.keys[j]))
  }

  /** The visits of the nested loop: locks in order, and the keys of each lock in order. */
  function Visits(locks: seq<Lock>): seq<Visit>
  {
    if locks == [] then [] else Visits(locks[..|locks| - 1]) + LockVisits(locks[|locks| - 1])
  }

  /**
   * One iteration of the inner loop. The token's inner map is created first;
   * an unexpired key, or an owner already recorded for the token, is skipped
   * without a call; otherwise the allowance is asked of the visit's lock and
   * stored only when it is not zero.
   */
  function Step(s: Scan, v: Visit, approved: Approvals): (r: Scan)
    ensures r.allowances.Keys == s.allowances.Keys + {v.token}
    ensures forall t, o :: t in s.allowances && o in s.allowances[t] ==>
      o in r.allowances[t] && r.allowances[t][o] == s.allowances[t][o]
    ensures forall t :: t in s.allowances && t != v.token ==> r.allowances[t] == s.allowances[t]
    ensures forall o :: o in r.allowances[v.token] ==>
      o == v.key.owner || (v.token in s.allowances && o in s.allowances[v.token])
    ensures !v.key.isExpired ==> r.queries == s.queries && r.allowances[v.token] == (if v.token in s.allowances then s.allowances[v.token] else map[])
  {
    var m := if v.token in s.allowances then s.allowances else s.allowances[v.token := map[]];
    if !v.key.isExpired then Scan(m, s.queries)
    else if v.key.owner in m[v.token] then Scan(m, s.queries)
    else
      var q := QueryOf(v);
      var amount := approved(q);
      if amount == 0 then Scan(m, s.queries + [q])
      else Scan(m[v.token := m[v.token][v.key.owner := amount]], s.queries + [q])
  }

  /** The state after the given visits, starting from an empty map and no calls. */
  function ScanVisits(visits: seq<Visit>, approved: Approvals): (r: Scan)
    ensures forall t, o :: t in r.allowances && o in r.allowances[t] ==> r.allowances[t][o] > 0
  {
    if visits == [] then Scan(map[], [])
    else Step(ScanVisits(visits[..|visits| - 1], approved), visits[|visits| - 1], approved)
  }

  lemma ScanAppend(visits: seq<Visit>, v: Visit, approved: Approvals)
    ensures ScanVisits(visits + [v], approved) == Step(ScanVisits(visits, approved), v, approved)
  {
    assert (visits + [v])[..|visits|] == visits;
  }

  lemma VisitsAppend(locks: seq<Lock>, i: nat)
    requires i < |locks|
    ensures Visits(locks[..i + 1]) == Visits(locks[..i]) + LockVisits(locks[i])
  {
    assert locks[..i + 1][..i] == locks[..i];
  }

  lemma LockVisitsAppend(done: seq<Visit>, lock: Lock, j: nat)
    requires j < |lock.keys|
    ensures done + LockVisits(lock)[..j + 1] == (done + LockVisits(lock)[..j]) + [Visit(lock.lockAddress, lock.tokenAddress, lock.keys[j])]
  {
    assert LockVisits(lock)[..j + 1] == LockVisits(lock)[..j] + [LockVisits(lock)[j]];
  }

  /** The body of the inner loop of main, for one key of one lock. */
  method VisitKey(allowances: AllowanceMap, queries: seq<AllowanceQuery>, lock: Lock, key: Key, approved: Approvals)
    returns (allowances': AllowanceMap, queries': seq<AllowanceQuery>)
    ensures Scan(allowances', queries') == Step(Scan(allowances, queries), Visit(lock.lockAddress, lock.tokenAddress, key), approved)
  {
    allowances', queries' := allowances, queries;
    if lock.tokenAddress !in allowances' {
      allowances' := allowances'[lock.tokenAddress := map[]];
    }
    if !key.isExpired {
      // unexpired key: skipped
      return;
    }
    if key.owner in allowances'[lock.tokenAddress] {
      // already known approved amount for this owner and token
      return;
    }
    var q := AllowanceQuery(lock.tokenAddress, key.owner, lock.lockAddress);
    queries' := queries' + [q];
    var approvedAmount := approved(q);
    if approvedAmount == 0 {
      // zero allowance: not stored
      return;
    }
    var inner: map<Address, nat> := allowances'[lock.tokenAddress];
    allowances' := allowances'[lock.tokenAddress := inner[key.owner := approvedAmount]];
  }

  /** The nested loops of main, building `allowanceByTokenByAccount`. */
  method FindSubscribers(locks: seq<Lock>, approved: Approvals) returns (allowances: AllowanceMap, queries: seq<AllowanceQuery>)
    ensures Scan(allowances, queries) == ScanVisits(Visits(locks), approved)
  {
    allowances := map[];
    queries := [];
    for i := 0 to |locks|
      invariant Scan(allowances, queries) == ScanVisits(Visits(locks[..i]), approved)
    {
      var lock := locks[i];
      ghost var done := Visits(locks[..i]);
      assert done + LockVisits(lock)[..0] == done;
      for j := 0 to |lock.keys|
        invariant Scan(allowances, queries) == ScanVisits(done + LockVisits(lock)[..j], approved)
      {
        LockVisitsAppend(done, lock, j);
        ScanAppend(done + LockVisits(lock)[..j], Visit(lock.lockAddress, lock.tokenAddress, lock.keys[j]), approved);
        allowances, queries := VisitKey(allowances, queries, lock, lock.keys[j], approved);
      }
      assert LockVisits(lock)[..|lock.keys|] == LockVisits(lock);
      VisitsAppend(locks, i);
    }
    assert locks[..|locks|] == locks;
  }

  // ---------------------------------------------------------------------------
  // Properties of the scan
  // ---------------------------------------------------------------------------

  /**
   * Visit `v` stores (or would store) an allowance for token `t` and owner `o`:
   * an expired key of `o` in a lock priced in `t`, to which `o` approved a
   * non-zero amount.
   */
  predicate Approves(v: Visit, t: Address, o: Address, approved: Approvals)
  {
    v.token == t && v.key.owner == o && v.key.isExpired && approved(QueryOf(v)) != 0
  }

  /**
   * An entry (t, o) exists exactly when some visit approves it, and its value
   * is the allowance granted to the lock of the FIRST such visit: later
   * expired keys with the same pair leave it unchanged, and a zero answer
   * before it is not recorded.
   */
  lemma {:induction false} FirstApprovalWins(visits: seq<Visit>, approved: Approvals, t: Address, o: Address)
    ensures var m := ScanVisits(visits, approved).allowances;
      (t in m && o in m[t]) <==> exists k :: 0 <= k < |visits| && Approves(visits[k], t, o, approved)
    ensures var m := ScanVisits(visits, approved).allowances;
      t in m && o in m[t] ==>
        exists k :: 0 <= k < |visits| && Approves(visits[k], t, o, approved)
          && (forall j :: 0 <= j < k ==> !Approves(visits[j], t, o, approved))
          && m[t][o] == approved(QueryOf(visits[k]))
  {
    if visits != [] {
      var n := |visits| - 1;
      var prefix, v := visits[..n], visits[n];
      assert visits == prefix + [v];
      FirstApprovalWins(prefix, approved, t, o);
      var before := ScanVisits(prefix, approved).allowances;
      var m := ScanVisits(visits, approved).allowances;
      assert forall k :: 0 <= k < n ==> prefix[k] == visits[k];
      if t in before && o in before[t] {
        var k :| 0 <= k < n && Approves(prefix[k], t, o, approved)
          && (forall j :: 0 <= j < k ==> !Approves(prefix[j], t, o, approved))
          && before[t][o] == approved(QueryOf(prefix[k]));
        assert Approves(visits[k], t, o, approved);
      } else {
        assert forall k :: 0 <= k < n ==> !Approves(visits[k], t, o, approved);
        if Approves(v, t, o, approved) {
          assert t in m && o in m[t];
          assert Approves(visits[n], t, o, approved);
        } else {
          assert !(t in m && o in m[t]);
        }
      }
    }
  }

  /** The visit at index k makes an allowance call: its key is expired and no earlier visit stored its pair. */
  predicate QueriedAt(visits: seq<Visit>, k: nat, approved: Approvals)
    requires k < |visits|
  {
    && visits[k].key.isExpired
    && forall j :: 0 <= j < k ==> !Approves(visits[j], visits[k].token, visits[k].key.owner, approved)
  }

  /**
   * The allowance calls made are exactly those of expired keys whose pair was
   * not yet stored, each against the key's own lock: unexpired keys never
   * cause a call, and a zero answer is not cached, so a later expired key
   * with the same pair is asked again.
   */
  lemma {:induction false} QueriesFromExpiredKeys(visits: seq<Visit>, approved: Approvals, q: AllowanceQuery)
    ensures q in ScanVisits(visits, approved).queries <==>
      exists k :: 0 <= k < |visits| && QueriedAt(visits, k, approved) && q == QueryOf(visits[k])
  {
    if visits != [] {
      var n := |visits| - 1;
      var prefix, v := visits[..n], visits[n];
      assert visits == prefix + [v];
      QueriesFromExpiredKeys(prefix, approved, q);
      FirstApprovalWins(prefix, approved, v.token, v.key.owner);
      assert forall k :: 0 <= k < n ==> prefix[k] == visits[k];
      assert forall k :: 0 <= k < n ==> (QueriedAt(prefix, k, approved) <==> QueriedAt(visits, k, approved));
      if exists k :: 0 <= k < n && QueriedAt(prefix, k, approved) && q == QueryOf(prefix[k]) {
        var k :| 0 <= k < n && QueriedAt(prefix, k, approved) && q == QueryOf(prefix[k]);
        assert QueriedAt(visits, k, approved) && q == QueryOf(visits[k]);
      }
    }
  }

  /** The inner map for a token exists once any visit is priced in that token, even if it stays empty. */
  lemma {:induction false} TokenMapCreated(visits: seq<Visit>, approved: Approvals, t: Address)
    ensures t in ScanVisits(visits, approved).allowances <==> exists k :: 0 <= k < |visits| && visits[k].token == t
  {
    if visits != [] {
      var n := |visits| - 1;
      TokenMapCreated(visits[..n], approved, t);
      assert forall k :: 0 <= k < n ==> visits[..n][k] == visits[k];
      if exists k :: 0 <= k < n && visits[..n][k].token == t {
        var k :| 0 <= k < n && visits[..n][k].token == t;
        assert visits[k].token == t;
      }
    }
  }

  /** The visits are exactly the keys of the locks, each with its lock's address and token. */
  lemma {:induction false} VisitsOfLocks(locks: seq<Lock>, v: Visit)
    ensures v in Visits(locks) <==>
      exists i, j :: 0 <= i < |locks| && 0 <= j < |locks[i].keys|
        && v == Visit(locks[i].lockAddress, locks[i].tokenAddress, locks[i].keys[j])
  {
    if locks != [] {
      var n := |locks| - 1;
      VisitsOfLocks(locks[..n], v);
      assert forall i :: 0 <= i < n ==> locks[..n][i] == locks[i];
      var last := LockVisits(locks[n]);
      if v in last {
        var j :| 0 <= j < |last| && last[j] == v;
        assert v == Visit(locks[n].lockAddress, locks[n].tokenAddress, locks[n].keys[j]);
      }
      if exists i, j :: 0 <= i < |locks| && 0 <= j < |locks[i].keys|
           && v == Visit(locks[i].lockAddress, locks[i].tokenAddress, locks[i].keys[j]) {
        var i, j :| 0 <= i < |locks| && 0 <= j < |locks[i].keys|
           && v == Visit(locks[i].lockAddress, locks[i].tokenAddress, locks[i].keys[j]);
        if i == n {
          assert last[j] == v;
        } else {
          assert locks[..n][i] == locks[i];
        }
      }
    }
  }

  /** Stage 3 finds an inner map for the token of every lock that has a key. */
  lemma FindSubscribersCoversTokens(locks: seq<Lock>, approved: Approvals)
    ensures TokensCovered(locks, ScanVisits(Visits(locks), approved).allowances)
  {
    var visits := Visits(locks);
    forall l | l in locks && |l.keys| > 0
      ensures l.tokenAddress in ScanVisits(visits, approved).allowances
    {
      var i :| 0 <= i < |locks| && locks[i] == l;
      var v := Visit(l.lockAddress, l.tokenAddress, l.keys[0]);
      VisitsOfLocks(locks, v);
      var k :| 0 <= k < |visits| && visits[k] == v;
      TokenMapCreated(visits, approved, l.tokenAddress);
    }
  }

  /**
   * Every stored entry (t, o) comes from an expired key owned by `o` in a lock
   * priced in `t`, and holds the non-zero allowance `o` granted to that lock.
   */
  lemma EntryFromExpiredKey(locks: seq<Lock>, approved: Approvals, t: Address, o: Address)
    requires var m := ScanVisits(Visits(locks), approved).allowances; t in m && o in m[t]
    ensures var m := ScanVisits(Visits(locks), approved).allowances;
      exists i, j :: 0 <= i < |locks| && 0 <= j < |locks[i].keys|
        && locks[i].tokenAddress == t && locks[i].keys[j].owner == o && locks[i].keys[j].isExpired
        && m[t][o] == approved(AllowanceQuery(t, o, locks[i].lockAddress)) > 0
  {
    var visits := Visits(locks);
    FirstApprovalWins(visits, approved, t, o);
    var k :| 0 <= k < |visits| && Approves(visits[k], t, o, approved)
      && ScanVisits(visits, approved).allowances[t][o] == approved(QueryOf(visits[k]));
    VisitsOfLocks(locks, visits[k]);
  }

  /** Visits of unexpired keys only make no call and leave every inner map empty. */
  lemma {:induction false} NoExpiredNoCalls(visits: seq<Visit>, approved: Approvals)
    requires forall k :: 0 <= k < |visits| ==> !visits[k].key.isExpired
    ensures ScanVisits(visits, approved).queries == []
    ensures forall t :: t in ScanVisits(visits, approved).allowances ==> ScanVisits(visits, approved).allowances[t] == map[]
  {
    if visits != [] {
      var n := |visits| - 1;
      assert forall k :: 0 <= k < n ==> visits[..n][k] == visits[k];
      NoExpiredNoCalls(visits[..n], approved);
    }
  }

  /**
   * Locks whose keys have all not expired cause no allowance call, whatever
   * the token contracts would answer, and record no owner: each of their
   * tokens only gets an empty inner map.
   */
  lemma UnexpiredKeysOnly(locks: seq<Lock>, approved: Approvals)
    requires forall i, j :: 0 <= i < |locks| && 0 <= j < |locks[i].keys| ==> !locks[i].keys[j].isExpired
    ensures ScanVisits(Visits(locks), approved).queries == []
    ensures var m := ScanVisits(Visits(locks), approved).allowances;
      forall t :: t in m ==> m[t] == map[]
  {
    var visits := Visits(locks);
    forall k | 0 <= k < |visits|
      ensures !visits[k].key.isExpired
    {
      VisitsOfLocks(locks, visits[k]);
    }
    NoExpiredNoCalls(visits, approved);
  }
}
